=== FILE: README.md ===
# Customer groups: membership and position engine

A Dafny model of the operations of the Customer Group Demo application that
move customers between customer groups and number their positions:

- `ErrorTracker`, the message accumulator every operation threads through;
- `CustomerGroups::ResetCustomerPosition`, which renumbers the customers of
  the listed groups 1..N in `(position, id)` order; on the corrected reading
  (see Findings) it numbers kept and discarded customers separately, while
  the code as written numbers the whole group first;
- `CustomerGroups::Create`, `Update` and `Delete`, which save, rename or
  destroy a group and move customers into it, out of it or to the default
  group, each in one transaction that is rolled back as soon as the tracker
  holds a message;
- `Customers::Create`, `Update` and `Delete`, which fall back to the default
  group, save or destroy one customer and reset the group a customer left;
- the validations of the `Customer` and `CustomerGroup` models, which decide
  when a save or a destroy is refused, and their `default`, `active_customer`
  and `by_name` scopes.

The record store is a class (`Records.Store`) holding the two tables as maps,
the set of rows whose direct column writes the database reports as not
applied, and the two id sequences. Each operation is a method over the store
and an `ErrorTracker` object. Its `ensures` ties the new tables and messages
to a pure function of the old ones (`Pipeline`, `Assigned`, `Vacated`,
`Saved`, `ResetGroups`...). Lemmas prove what the application promises about
those functions: membership after a move, dense numbering, idempotence, and
the store invariant `Consistent`. `Consistent` means a default group exists,
every customer's group exists, and the ids are below the sequences.

A transaction is modelled as copy-then-commit. `Persistence.Conclude` keeps
the writes when the tracker is empty. Otherwise it restores the snapshot of
both tables. The id sequences are not restored, as in the database.

Files: `records.dfy` (tables, store, envelope), `persistence.dfy` (Active
Record writes, transaction end), `error_tracker.dfy`, `text.dfy` (blank, case
folding, substring), `sequences.dfy` (`uniq`, repetition, ascending id order),
`customer.dfy`, `customer_group.dfy`, `reset_customer_position.dfy`,
`customer_groups_create.dfy`, `customer_groups_update.dfy`,
`customer_groups_delete.dfy`, `customers_create.dfy`, `customers_update.dfy`,
`customers_delete.dfy`.

Where the code and its intended reading differ, the model follows the
intended reading and says so here:

- `CustomerGroups.default`, `CustomerGroups.where` and `Customers.new` name
  the operation modules where the models `CustomerGroup` and `Customer` are
  meant (customer_groups/delete.rb:34, customers/create.rb:27,33,37,
  customers/update.rb:39,46, reset_customer_position.rb:18). The model reads
  them as the models.
- `CustomerGroups::ResetCustomerPosition` numbers the whole association,
  discarded customers included, in its first pass
  (reset_customer_position.rb:20-22) and only then renumbers the discarded
  customers from 1 (reset_customer_position.rb:24-26), so kept and
  discarded positions interleave and a second reset moves customers. The
  model's reset (`ResetGroups`, used by every operation) numbers the kept
  customers in the first pass; the rows marked "(corrected)" below state
  that reading, and `ResetGroupAsWritten` with `AsWrittenNotIdempotent`
  models the code as written (see Findings).
- The operations call the `discard` gem's scopes (`customers.discarded` at
  reset_customer_position.rb:24, `customers.discarded.update_all` and
  `customers.kept` at customer_groups/delete.rb:41-43), but `Customer`
  (customer.rb:12-16) does not include `Discard::Model` and the `customers`
  table (db/schema.rb:24-36) has no `discarded_at` column, so as written
  those calls raise, and nothing rescues them. The model assumes
  `include Discard::Model` and a `discarded_at` column, as the model tests
  expect (spec/models/customer_spec.rb:15 and 649); a customer is
  discarded when that column is set, the `discarded` flag of a row.
- The model tests expect `Customer` to keep its positions with
  `acts_as_list`, scoped by group and discard state
  (spec/models/customer_spec.rb:36-75), but customer.rb declares no
  `acts_as_list`. So, as written, a customer's position is only what the
  operations write. The model follows the code as written here: the four
  operations named under Left out can leave a group's positions with
  gaps or repeats.
- `CustomerGroups::Create` collects the group ids of all customers, not
  only of the customers being assigned (customer_groups/create.rb:31), so
  it resets every group that has customers. The model follows the code as
  written (`GroupsOf(cs, cs.Keys)`).
- `CustomerGroups::Update` writes each requested position straight onto the
  customer (customer_groups/update.rb:78-83) without renumbering the other
  customers of the group. The model follows the code as written
  (`PositionOne`).
- The schema spells the default flag `is_deafult` (db/schema.rb:19), while the
  code reads `is_default`. The model has one flag, `isDefault`.

## Model

| member | source | states |
|---|---|---|
| ErrorTracking.ErrorTracker.constructor | app/operations/error_tracker.rb:2-5 | a new tracker holds no message, `has_error?` is false and `error_list` is empty |
| ErrorTracking.ErrorTracker.HasError | app/operations/error_tracker.rb:7-9 | `has_error?` holds exactly when `error_list` is not empty, i.e. some message was added |
| ErrorTracking.ErrorTracker.AddErrors | app/operations/error_tracker.rb:11-13 | `add_errors` appends every message of a string or nested list, flattened and in order, keeping the earlier ones in place |
| ErrorTracking.Texts | app/operations/error_tracker.rb:12 | a list of plain messages handed to `add_errors` flattens to itself |
| ErrorTracking.FlattenAllAppend | app/operations/error_tracker.rb:12 | flattening a concatenation is the concatenation of the flattened parts |
| ErrorTracking.ErrorTracker.ErrorList | app/operations/error_tracker.rb:15-17 | `error_list` has no duplicates and holds exactly the messages ever added |
| Sequences.Dedup | app/operations/error_tracker.rb:16 | `uniq` yields a list without duplicates with the same elements as its input |
| Sequences.DedupKeepsFirstOccurrenceOrder | app/operations/error_tracker.rb:16 | `uniq` keeps the elements in the order of their first occurrence |
| Sequences.DedupSameLengthIffNoDuplicates | app/operations/customer_groups/update.rb:42-44 | `count == uniq.count` holds exactly when the list repeats nothing |
| Sequences.Ascending | app/operations/customer_groups/update.rb:86 | `find_each` walks a set of ids in strictly ascending order, each id once |
| CustomerModel.Errors | app/models/customer.rb:16-31 | a customer is valid exactly when its group exists, name and mobile number are not blank, the name is 3 to 50 long, and no other customer has the same mobile number or name ignoring case; each failure contributes its message |
| CustomerModel.ErrorsIgnoreOtherRowsGroups | app/models/customer.rb:20-31 | validation looks at other customers only through their names and mobile numbers, so moving customers between groups never changes it |
| CustomerModel.ActiveCustomersExactly | app/models/customer.rb:33 | `active_customer` selects a customer exactly when it is in the table with `is_active` true |
| CustomerModel.ByNameFindsVerbatim | app/models/customer.rb:35-37 | a customer whose name or mobile number contains the term verbatim is found, whatever the case of the term and of the name |
| CustomerModel.ByNameEmptyTermFindsAll | app/models/customer.rb:35-37 | the empty term finds every customer |
| CustomerModel.ByNameNarrows | app/models/customer.rb:35-37 | whatever a term finds, any part of it finds too |
| CustomerModel.ScopesIgnoreGroupsAndPositions | app/models/customer.rb:33-37 | both scopes read only the name, the mobile number and `is_active`, so tables that agree on those answer alike |
| CustomerModel.MovesAndResetsKeepScopes | app/models/customer.rb:33-37 | moving customers between groups and renumbering positions change neither scope |
| CustomerModel.NoBreakSpaceMobileIsBlank | app/models/customer.rb:18 | a mobile number made of no-break spaces is blank and draws "Mobile no can't be blank" |
| CustomerModel.ByNameIgnoresCase | spec/models/customer_spec.rb:217-263 | "MoHAn" finds "Mohan" by name and not "Ramesh" |
| CustomerModel.ByNameMatchesMobile | spec/models/customer_spec.rb:217-263 | "231" finds the customer whose mobile number contains it and not the other |
| CustomerGroupModel.Errors | app/models/customer_group.rb:15-20 | a group is valid exactly when its name is not blank, is 3 to 50 long and is used by no other group ignoring case; a taken name yields the uniqueness message |
| CustomerGroupModel.DefaultGroups | app/models/customer_group.rb:24 | the `default` scope is exactly the groups flagged default, and it is non-empty exactly when a default group exists |
| CustomerGroupModel.DefaultGroupId | app/models/customer_group.rb:24 | `default.first.id` is a default group with the lowest id among default groups |
| CustomerGroupModel.ByNameIgnoresTermCase | app/models/customer_group.rb:25 | `ilike` ignores case, so terms that differ only in case find the same groups |
| CustomerGroupModel.ByNameFindsVerbatim | app/models/customer_group.rb:25 | a group whose name contains the term verbatim is found, whatever the case of either |
| CustomerGroupModel.ByNameNarrows | app/models/customer_group.rb:25 | whatever a term finds, any part of it finds too |
| CustomerGroupModel.ByNameFindsByName | spec/models/customer_group_spec.rb:82-119 | "laila" finds "Laila Ansari" only |
| CustomerGroupModel.ByNameMatchesSubstring | spec/models/customer_group_spec.rb:82-119 | "ar" finds "Archi Michael" and not "Rachi Methew" |
| CustomerGroupModel.DestroyErrors | app/models/customer_group.rb:27-32 | the destroy guard objects exactly when the group is the default |
| CustomerGroupModel.Destroy | app/models/customer_group.rb:27-32 | destroying the default group keeps the table and reports "you can't delete default user group"; any other group is removed, leaving one group fewer |
| Persistence.UpdateCustomer | app/operations/customer_groups/update.rb:87 | `update` writes the row exactly when the validations pass and reports their messages |
| Persistence.MoveCustomers | app/operations/customer_groups/update.rb:85-91 | `find_each { update; add_errors }` moves every customer the validations accept and records the others' messages in ascending id order |
| Persistence.MoveMessagesEmptyIff | app/operations/customer_groups/update.rb:89 | the loop records no message exactly when no customer is refused |
| Persistence.MovedWithoutFailures | app/operations/customer_groups/update.rb:85-91 | when no customer is refused, every walked customer is in the target group |
| Persistence.MovedKeepsLinked | app/operations/customer_groups/update.rb:85-91 | moving customers into an existing group keeps every customer's group in the table |
| Persistence.MoveChecked | app/operations/customer_groups/create.rb:40 | one `update(customer_group_id:)` returns its messages and writes only when there are none |
| Persistence.UpdateGroup | app/operations/customer_groups/update.rb:57 | `customer_group.update(name:)` writes exactly when the group validations pass |
| Persistence.InsertGroup | app/operations/customer_groups/create.rb:23 | `save` of a new group takes the next id and writes it exactly when the validations pass |
| Persistence.InsertCustomer | app/operations/customers/create.rb:19 | `save` of a new customer takes the next id and writes it exactly when the validations pass |
| Persistence.DestroyGroup | app/operations/customer_groups/delete.rb:28 | `destroy` removes exactly a non-default group and otherwise reports the guard's message |
| Persistence.Conclude | app/operations/customer_groups/create.rb:6-17 | the transaction commits exactly when the tracker is empty, otherwise restores both tables; the store stays consistent |
| Records.Store.UpdatePosition | app/operations/customer_groups/reset_customer_position.rb:21 | `update_column(:position, index)` writes the position exactly when the database applies it, and reports whether it did |
| Records.Reassigned | app/operations/customer_groups/delete.rb:41 | after moving a set of customers to a group, exactly those rows carry the new group and the others are unchanged |
| ResetCustomerPosition.Members | app/operations/customer_groups/reset_customer_position.rb:20-26 | `customer_group.customers`, `.kept` and `.discarded` are exactly the group's customers in that scope |
| ResetCustomerPosition.Rank | app/operations/customer_groups/reset_customer_position.rb:20 | `each.with_index(1)` over `order(:position, :id)` gives a customer the index 1 + the number of customers before it |
| ResetCustomerPosition.RenumberPass | app/operations/customer_groups/reset_customer_position.rb:20-22 | (corrected) one pass writes every customer its index and adds one message per refused write, continuing after a refusal |
| ResetCustomerPosition.ResetGroup | app/operations/customer_groups/reset_customer_position.rb:19-27 | (corrected) the two passes of one group give the reset of that group, with one message per refused write |
| ResetCustomerPosition.ResetPositions | app/operations/customer_groups/reset_customer_position.rb:17-28 | (corrected) `reset_customer_positions` resets exactly the listed groups that exist, adding one message per refused write |
| ResetCustomerPosition.Call | app/operations/customer_groups/reset_customer_position.rb:4-13 | (corrected) the rows become `ResetGroups` of the listed existing groups; `success` is false exactly when the tracker holds a message, including one added before the call |
| ResetCustomerPosition.ResetNumbersPartitionInOrder | app/operations/customer_groups/reset_customer_position.rb:20-26 | (corrected) after a reset, the kept (or discarded) customers of a listed group hold exactly the positions 1..N, strictly increasing in their former `(position, id)` order |
| ResetCustomerPosition.ResetKeepsMembership | app/operations/customer_groups/reset_customer_position.rb:17-28 | a reset changes only positions, never a group or discarded flag, and leaves unlisted groups and refused rows as they were |
| ResetCustomerPosition.ResetKeepsLinked | app/operations/customer_groups/reset_customer_position.rb:17-28 | a reset keeps every customer's group in the table |
| ResetCustomerPosition.ResetIgnoresUnknownGroups | app/operations/customer_groups/reset_customer_position.rb:18 | ids naming no group change nothing; duplicates are absorbed by reading the ids as a set |
| ResetCustomerPosition.ResetIdempotent | app/operations/customer_groups/reset_customer_position.rb:19-27 | when every write applies, a second reset leaves every position where the first put it |
| ResetCustomerPosition.TwoPasses | app/operations/customer_groups/reset_customer_position.rb:20-26 | (corrected) a pass over the kept customers and then one over the discarded ones is the reset of the group |
| ResetCustomerPosition.FailedWritesSplit | app/operations/customer_groups/reset_customer_position.rb:20-26 | a group's refused writes are those of its kept and of its discarded customers |
| ResetCustomerPosition.ResetComposes | app/operations/customer_groups/reset_customer_position.rb:19 | resetting the groups one after another is resetting them together |
| ResetCustomerPosition.AsWrittenNotIdempotent | app/operations/customer_groups/reset_customer_position.rb:20-26 | with the first pass over the whole association, a kept customer at position 1 moves to position 2 on a second reset |
| ResetCustomerPosition.CorrectedResetSettles | app/operations/customer_groups/reset_customer_position.rb:20-26 | on the same rows the corrected reset gives both customers position 1 and a second reset changes nothing |
| CustomerGroupsUpdate.PositionsAcceptedIff | app/operations/customer_groups/update.rb:30-49 | a position list passes exactly when it is blank or holds one entry whose position is within 1 and the group's size; the duplicate check never refuses more |
| CustomerGroupsUpdate.RenameGroup | app/operations/customer_groups/update.rb:55-59 | a blank name changes nothing; another name is written when valid and its messages go to the tracker |
| CustomerGroupsUpdate.RenameKeepsDefault | app/operations/customer_groups/update.rb:55-62 | the rename keeps the default group, so removal uses the same default |
| CustomerGroupsUpdate.RemoveCustomers | app/operations/customer_groups/update.rb:61-68 | removal moves the listed customers of the group to the default group and resets the groups they were in |
| CustomerGroupsUpdate.RemoveStepMembership | app/operations/customer_groups/update.rb:61-66 | a removal that records nothing moves exactly the listed customers of the group, into the default group |
| CustomerGroupsUpdate.AssignCustomers | app/operations/customer_groups/update.rb:70-76 | assignment moves the listed customers into the group and resets the groups they came from |
| CustomerGroupsUpdate.AssignStepMembership | app/operations/customer_groups/update.rb:70-74 | an assignment that records nothing moves exactly the listed customers into the group |
| CustomerGroupsUpdate.UpdatePositions | app/operations/customer_groups/update.rb:78-83 | the rows and messages after the entries are those of `Repositioned`, the entries applied in order on the rows the previous ones left |
| CustomerGroupsUpdate.PositionOneTouchesOnlyListed | app/operations/customer_groups/update.rb:79-81 | one entry changes at most the listed customer, and only its position, to the requested one; a customer outside the group or an unknown id leaves every row as it was |
| CustomerGroupsUpdate.RepositionedTouchesOnlyListed | app/operations/customer_groups/update.rb:78-83 | the entries change positions only, and a customer no entry names, or one outside the group, keeps its row |
| CustomerGroupsUpdate.RepositionedKeepsGroups | app/operations/customer_groups/update.rb:78-83 | setting positions moves no customer between groups |
| CustomerGroupsUpdate.UpdateMembership | app/operations/customer_groups/update.rb:14-18 | after an update that records nothing, listed customers are in the group, removed ones not also listed are in the default group, and the rest keep their group |
| CustomerGroupsUpdate.UpdateSetsPosition | app/operations/customer_groups/update.rb:78-83 | after an update that records nothing, the customer of the one entry holds the requested position when it is in the group |
| CustomerGroupsUpdate.UpdateRenames | app/operations/customer_groups/update.rb:55-59 | after an update that records nothing, a non-blank name is the group's new name and no other group changes |
| CustomerGroupsUpdate.UpdateKeepsLinked | app/operations/customer_groups/update.rb:13-23 | an update keeps the same rows, a default group and a group for every customer |
| CustomerGroupsUpdate.Attempt | app/operations/customer_groups/update.rb:14-18 | the transaction body leaves the rows, groups and messages of `Pipeline`: a refused position list writes nothing and records "Invalid position provided" |
| CustomerGroupsUpdate.Call | app/operations/customer_groups/update.rb:11-26 | success exactly when no message is held; success keeps the `Pipeline` state, failure restores both tables; errors are `error_list` and the result is the group in memory |
| CustomerGroupsCreate.UpdateCustomers | app/operations/customer_groups/create.rb:37-50 | the loop stops at the first refused customer and adds the notice once; when none is refused every listed customer is moved and nothing is added |
| CustomerGroupsCreate.ResetCustomerPositions | app/operations/customer_groups/create.rb:52-63 | the reset runs twice: on the groups every customer held beforehand, then on the new group |
| CustomerGroupsCreate.AssignGroupToCustomers | app/operations/customer_groups/create.rb:29-35 | when no listed customer is refused the rows are `Assigned`; otherwise the notice and only reset messages are recorded |
| CustomerGroupsCreate.AssignedMembership | app/operations/customer_groups/create.rb:29-35 | after a full assignment every listed customer is in the new group and every other keeps its group |
| CustomerGroupsCreate.AssignedKeepsLinked | app/operations/customer_groups/create.rb:29-35 | moving customers into an existing group keeps every customer's group in the table |
| CustomerGroupsCreate.CreatedConsistent | app/operations/customer_groups/create.rb:6-15 | saving the group under the next id and assigning customers keeps the store consistent |
| CustomerGroupsCreate.StoppedThenReset | app/operations/customer_groups/create.rb:47-50 | a stopped assignment records the notice followed by reset messages only |
| CustomerGroupsCreate.QuietAssignMovesAll | app/operations/customer_groups/create.rb:12 | an assignment that records nothing refused no listed customer |
| CustomerGroupsCreate.NoCustomersRecordsNothing | spec/operations/customer_groups/create_spec.rb:82-89 | a valid group with no customers listed records nothing and takes the next id |
| CustomerGroupsCreate.Attempt | app/operations/customer_groups/create.rb:7-9 | a refused group records its messages and writes nothing; a saved one takes the next id and records what the assignment records |
| CustomerGroupsCreate.Call | app/operations/customer_groups/create.rb:4-18 | success exactly when no message is held, with `{true, [], group}` and every listed customer in the group; failure restores both tables and returns `error_list` with `nil` |
| CustomerGroupsDelete.BulkThenKept | app/operations/customer_groups/delete.rb:40-51 | the bulk move of the discarded customers and the moves of the kept ones together move the whole group |
| CustomerGroupsDelete.MoveKept | app/operations/customer_groups/delete.rb:43-50 | the kept loop aborts exactly when some kept customer is refused, recording that customer's messages only; otherwise all are moved and nothing is added |
| CustomerGroupsDelete.AssignCustomersToDefaultGroup | app/operations/customer_groups/delete.rb:33-38 | discarded customers move without validation, kept ones until a refusal; after a full move the default group is reset |
| CustomerGroupsDelete.VacatedMembership | app/operations/customer_groups/delete.rb:33-51 | after a delete nothing refused, every former member, discarded or kept, is in the default group and every other customer keeps its group |
| CustomerGroupsDelete.VacatedDefaultInOrder | app/operations/customer_groups/delete.rb:53-55 | after the move, the default group's kept customers hold positions 1..N in `(position, id)` order |
| CustomerGroupsDelete.VacatedConsistent | app/operations/customer_groups/delete.rb:26-30 | removing a non-default group once its customers are in the default group keeps the store consistent |
| CustomerGroupsDelete.Attempt | app/operations/customer_groups/delete.rb:7-9 | the default group is refused with "You can't delete default customer group"; otherwise the group is destroyed after its customers are moved |
| CustomerGroupsDelete.Call | app/operations/customer_groups/delete.rb:4-15 | success exactly when no message is held, with the group gone, its customers moved and `{true, [], group}`; failure restores both tables and returns `error_list` with `[]` |
| CustomersCreate.GroupFor | app/operations/customers/create.rb:30-38 | an existing requested group is kept; a missing or unknown one is replaced by a default group |
| CustomersCreate.BuiltIsLinked | app/operations/customers/create.rb:25-34 | the new customer's group always exists, so `belongs_to` never refuses it |
| CustomersCreate.BuildKeepsAttributes | app/operations/customers/create.rb:25-28 | the new customer carries the given name, mobile number and position, is kept, and is active only when `is_active` is true |
| CustomersCreate.InsertedConsistent | app/operations/customers/create.rb:18-19 | adding a customer under the next id in an existing group keeps the store consistent |
| CustomersCreate.Call | app/operations/customers/create.rb:4-14 | success exactly when the validations pass, storing the customer under a fresh id with `errors: []` whatever the tracker held; failure stores nothing and returns `error_list` with `nil` |
| CustomersUpdate.GroupFor | app/operations/customers/update.rb:32-43 | the group id kept by `build_customer_params` always names an existing group |
| CustomersUpdate.NilAttributesIgnored | app/operations/customers/update.rb:33 | attributes given as `nil` leave their column as it was; given ones replace it |
| CustomersUpdate.GroupFallback | app/operations/customers/update.rb:35-42 | an existing group id is applied; an invalid one gives the default group to a customer without a group and is dropped otherwise |
| CustomersUpdate.ResetCustomerGroupPosition | app/operations/customers/update.rb:26-30 | the old group is reset only when the customer's group changed |
| CustomersUpdate.SavedRenumbersGroupLeft | app/operations/customers/update.rb:26-30 | after a move, the group left holds positions 1..N in order again, and the customer carries its new attributes |
| CustomersUpdate.SavedConsistent | app/operations/customers/update.rb:12-13 | an accepted save keeps the store consistent |
| CustomersUpdate.JoinedGroupMayRepeatPositions | app/operations/customers/update.rb:26-30 | only the group left is renumbered: moving a customer that is first in its group into a group whose first customer already holds position 1 is accepted, and both then hold position 1 |
| CustomersUpdate.Call | app/operations/customers/update.rb:4-22 | success exactly when the validations pass, with `errors: []` even when the reset records messages; failure writes nothing and returns `error_list`; either way the result is the customer as assigned |
| CustomersDelete.DestroyCustomer | app/operations/customers/delete.rb:8 | `destroy` removes the row exactly when it reports no message |
| CustomersDelete.Returned | app/operations/customers/delete.rb:6 | the returned customer points at a default group |
| CustomersDelete.RemovedConsistent | app/operations/customers/delete.rb:8 | removing a customer keeps the store consistent and the other rows unchanged |
| CustomersDelete.Call | app/operations/customers/delete.rb:4-20 | the customer is gone exactly when the destroy reports nothing and the tracker was empty; then the result is the customer pointing at the default group with no message; otherwise the destroy's messages are added, nothing changes and the result is `nil` |

## Left out

- Controllers, searches, migrations and the test factory: request handling, raw SQL search strings and layout, outside the engine.
- `Titleize`: the name normaliser applied before validation is a foreign inflector; names are validated as given.
- E-mail, address, `due_amount` and `total_due_amount`: no operation reads or writes them.
- The `discard` gem, which the code as written does not mix into `Customer`, is assumed present and reduced to the `discarded` flag of a row (whether `discarded_at` is set); `discard` and `undiscard` themselves are never called by the operations.
- `Text.IsBlank`: the whitespace set is Unicode's White_Space characters, as `[[:space:]]` in `String#blank?`; case folding covers ASCII letters only; `LIKE`/`ILIKE` wildcards inside a search term are taken literally.
- Database failures other than a refused position write: `update_column` refusals are the `unwritable` set of the store; a refused customer destroy is the `refusal` parameter of `CustomersDelete.Call`, since the `Customer` model has no destroy callback.
- `CustomerGroupsCreate.UpdateCustomers`: the rows moved before the loop stops are not stated, since the transaction always rolls them back.
- `CustomerGroupsDelete.MoveKept`: which refused customer's messages are recorded depends on the unordered `each`; only that they are one refused customer's messages is stated.
- The order of messages within one unordered reset is not stated, only their number, since every such message is the same text.
- A store without a default group: `CustomerGroup.default.first.id` raises on `nil`; every operation requires a consistent store instead.
- `Exceptions::InvalidRecordException` and Active Record's unwinding: a raise is a return from the transaction body, and rollback restores the snapshot of both tables.
- `is_active` has no database default in the schema, so a customer created without it is inactive; the annotation `default(TRUE)` in customer.rb is not followed.
- `Customers::Update` returns its customer under the key `customer:`; the model uses the same envelope as every other operation.
- `CustomersCreate.Call`: positions are not kept dense. `Customer` declares no `acts_as_list`, so the new customer takes the given position or none (customers/create.rb:25-28), not the next one of its group.
- `CustomersUpdate.Call`: positions are not kept dense. Only the group left is reset (customers/update.rb:26-30); the group joined may end with repeated positions, as `CustomersUpdate.JoinedGroupMayRepeatPositions` shows.
- `CustomersDelete.Call`: positions are not kept dense. No reset follows the destroy (customers/delete.rb:4-20), so the customer's group keeps a gap.
- `CustomerGroupsUpdate.Call`: positions are not kept dense. The groups the assigned customers came from are reset, but `gid` never is (customer_groups/update.rb:70-76), and a requested position is written without renumbering the others (customer_groups/update.rb:78-83).
- The resets run on the corrected two passes (kept, then discarded) everywhere; see Findings.

## Findings

| source | as written | input that shows it | evidently intended | confidence | as-written member | corrected member |
|---|---|---|---|---|---|---|
| app/operations/customer_groups/reset_customer_position.rb:20-26 | the first pass numbers the whole association, discarded customers included, and the second renumbers the discarded ones from 1, so kept and discarded positions interleave and a second reset moves customers | group 5 with kept customer 2 at position 1 and discarded customer 1 at position 2: the first reset gives both position 1, the second gives customer 2 position 2 | the first pass numbers the kept customers and the second the discarded ones, so a reset with every write applied is idempotent | not executed | ResetCustomerPosition.AsWrittenNotIdempotent | ResetCustomerPosition.ResetIdempotent |

=== FILE: customer.dfy ===
/** The `Customer` model (app/models/customer.rb): validations and scopes. */
module CustomerModel {
  import opened Records
  import opened Text
  import ResetCustomerPosition

  const GroupMustExist := "Customer group must exist"
  const MobileNotUnique := "Mobile no should be uniq. Customer already exists with same mobile no."
  const NameNotUnique := "Name should be uniq. Please enter another name to identify customer."

  /** Another customer already uses `mobile`, compared case-insensitively. */
  predicate MobileTaken(customers: Customers, id: CustomerId, mobile: string) {
    exists d :: d in customers && d != id && SameIgnoringCase(customers[d].mobileNo, mobile)
  }

  /** Another customer already uses `name`, compared case-insensitively. */
  predicate NameTaken(customers: Customers, id: CustomerId, name: string) {
    exists d :: d in customers && d != id && SameIgnoringCase(customers[d].name, name)
  }

  /**
   * Full messages of the validations, in declaration order, for `c` saved
   * under `id`: `belongs_to`, presence of name and mobile number, uniqueness
   * of the mobile number, length and uniqueness of the name.
   */
  function Errors(customers: Customers, groups: Groups, id: CustomerId, c: Customer): (errs: seq<string>)
    ensures errs == [] <==>
      && c.groupId in groups
      && !IsBlank(c.name) && !IsBlank(c.mobileNo)
      && 3 <= |c.name| <= 50
      && !MobileTaken(customers, id, c.mobileNo)
      && !NameTaken(customers, id, c.name)
    ensures c.groupId !in groups ==> GroupMustExist in errs
    ensures MobileTaken(customers, id, c.mobileNo) ==> MobileNotUnique in errs
    ensures NameTaken(customers, id, c.name) ==> NameNotUnique in errs
  {
    (if c.groupId in groups then [] else [GroupMustExist])
    + PresenceErrors("Name", c.name)
    + PresenceErrors("Mobile no", c.mobileNo)
    + (if MobileTaken(customers, id, c.mobileNo) then [MobileNotUnique] else [])
    + LengthErrors("Name", c.name)
    + (if NameTaken(customers, id, c.name) then [NameNotUnique] else [])
  }

  /**
   * Validation looks at the other rows only through their names and mobile
   * numbers, so moving customers between groups never changes its outcome.
   */
  lemma {:induction false} ErrorsIgnoreOtherRowsGroups(cs0: Customers, cs1: Customers, groups: Groups, id: CustomerId, c: Customer)
    requires cs0.Keys == cs1.Keys
    requires forall d :: d in cs0 ==> cs0[d].name == cs1[d].name && cs0[d].mobileNo == cs1[d].mobileNo
    ensures Errors(cs0, groups, id, c) == Errors(cs1, groups, id, c)
  {
    assert MobileTaken(cs0, id, c.mobileNo) == MobileTaken(cs1, id, c.mobileNo);
    assert NameTaken(cs0, id, c.name) == NameTaken(cs1, id, c.name);
  }

  /** The `active_customer` scope. */
  function ActiveCustomers(customers: Customers): set<CustomerId> {
    set c | c in customers && customers[c].isActive
  }

  /** The `by_name` filter on one row: `lower(name) LIKE '%term%'` (term downcased) or `mobile_no LIKE '%term%'`. */
  predicate Matches(c: Customer, term: string) {
    Contains(Lower(c.name), Lower(term)) || Contains(c.mobileNo, term)
  }

  /** The `by_name` scope. */
  function ByName(customers: Customers, term: string): set<CustomerId> {
    set c | c in customers && Matches(customers[c], term)
  }

  /** `ByName` is exactly the rows of `found` when they match and no other row does. */
  lemma ByNameExactly(customers: Customers, term: string, found: set<CustomerId>)
    requires found <= customers.Keys
    requires forall c :: c in found ==> Matches(customers[c], term)
    requires forall c :: c in customers && c !in found ==> !Matches(customers[c], term)
    ensures ByName(customers, term) == found
  {
  }

  /** `active_customer` selects exactly the customers whose `is_active` is true. */
  lemma ActiveCustomersExactly(customers: Customers)
    ensures forall c :: c in ActiveCustomers(customers) <==> c in customers && customers[c].isActive
  {
  }

  /**
   * A customer whose name (in any case) or mobile number contains the term
   * verbatim is found, whatever the case of the term and of the name.
   */
  lemma ByNameFindsVerbatim(customers: Customers, term: string)
    ensures forall c :: c in customers && (Contains(customers[c].name, term) || Contains(customers[c].mobileNo, term))
                        ==> c in ByName(customers, term)
  {
    forall c | c in customers && Contains(customers[c].name, term)
      ensures Matches(customers[c], term)
    {
      ContainsLowered(customers[c].name, term);
    }
  }

  /** The empty term finds every customer. */
  lemma ByNameEmptyTermFindsAll(customers: Customers)
    ensures ByName(customers, "") == customers.Keys
  {
    forall c | c in customers ensures Matches(customers[c], "") {
      ContainsEmpty(Lower(customers[c].name));
    }
  }

  /** A longer term narrows the search: whatever `term` finds, any part `part` of it finds too. */
  lemma ByNameNarrows(customers: Customers, term: string, part: string)
    requires Contains(term, part)
    ensures ByName(customers, term) <= ByName(customers, part)
  {
    ContainsLowered(term, part);
    forall c | c in ByName(customers, term) ensures Matches(customers[c], part) {
      if Contains(Lower(customers[c].name), Lower(term)) {
        ContainsTransitive(Lower(customers[c].name), Lower(term), Lower(part));
      } else {
        ContainsTransitive(customers[c].mobileNo, term, part);
      }
    }
  }

  /**
   * Both scopes read only the name, the mobile number and `is_active`: two
   * tables that differ in groups, positions or discarded flags answer alike.
   */
  lemma ScopesIgnoreGroupsAndPositions(cs0: Customers, cs1: Customers, term: string)
    requires cs0.Keys == cs1.Keys
    requires forall c :: c in cs0 ==>
      cs0[c].name == cs1[c].name && cs0[c].mobileNo == cs1[c].mobileNo && cs0[c].isActive == cs1[c].isActive
    ensures ActiveCustomers(cs0) == ActiveCustomers(cs1)
    ensures ByName(cs0, term) == ByName(cs1, term)
  {
    assert forall c :: c in cs0 ==> (Matches(cs0[c], term) <==> Matches(cs1[c], term));
  }

  /** Moving customers between groups and renumbering positions change neither scope. */
  lemma MovesAndResetsKeepScopes(cs: Customers, moved: set<CustomerId>, target: GroupId, gs: set<GroupId>,
                                 refused: set<CustomerId>, term: string)
    ensures var r := ResetCustomerPosition.ResetGroups(Reassigned(cs, moved, target), gs, refused);
      && ActiveCustomers(r) == ActiveCustomers(cs)
      && ByName(r, term) == ByName(cs, term)
  {
    var m := Reassigned(cs, moved, target);
    ScopesIgnoreGroupsAndPositions(cs, m, term);
    ResetCustomerPosition.ResetKeepsMembership(m, gs, refused);
    var r := ResetCustomerPosition.ResetGroups(m, gs, refused);
    assert forall c :: c in m ==> r[c].(position := m[c].position) == m[c];
    ScopesIgnoreGroupsAndPositions(m, r, term);
  }

  /** A mobile number of no-break spaces is blank, so the presence validation refuses it. */
  lemma NoBreakSpaceMobileIsBlank(customers: Customers, groups: Groups, id: CustomerId)
    ensures "Mobile no" + CantBeBlank in Errors(customers, groups, id, Mohan.(mobileNo := "\U{A0}\U{A0}"))
  {
    var c := Mohan.(mobileNo := "\U{A0}\U{A0}");
    assert IsBlank(c.mobileNo);
    var errs := Errors(customers, groups, id, c);
    var front := (if c.groupId in groups then [] else [GroupMustExist]) + PresenceErrors("Name", c.name);
    assert errs[|front|] == "Mobile no" + CantBeBlank;
  }

  const Mohan := Customer(0, At(1), false, true, "Mohan", "1251231231")
  const Ramesh := Customer(0, At(2), false, true, "Ramesh", "0001112220")
  const MohanPandey := Customer(0, At(2), false, true, "Mohan pandey", "1256789034")

  lemma MohanMatchesByName()
    ensures Matches(Mohan, "MoHAn")
  {
    assert Lower("MoHAn") == "mohan";
    assert Lower(Mohan.name) == "mohan";
    assert OccursAt(Lower(Mohan.name), Lower("MoHAn"), 0);
  }

  lemma RameshMissesMohan()
    ensures !Matches(Ramesh, "MoHAn")
  {
    assert CaselessPairFreeFrom("Ramesh", 'm', 'o', 0);
    NoCaselessOccurrence(Ramesh.name, "MoHAn", 'm', 'o');
    assert PairFreeFrom("0001112220", 'M', 'o', 0);
    NoOccurrence(Ramesh.mobileNo, "MoHAn", 'M', 'o');
  }

  lemma MohanMatchesByMobile()
    ensures Matches(Mohan, "231")
  {
    assert OccursAt(Mohan.mobileNo, "231", 4);
  }

  lemma MohanPandeyMisses231()
    ensures !Matches(MohanPandey, "231")
  {
    assert CaselessPairFreeFrom("Mohan pandey", '2', '3', 0);
    NoCaselessOccurrence(MohanPandey.name, "231", '2', '3');
    assert PairFreeFrom("1256789034", '2', '3', 0);
    NoOccurrence(MohanPandey.mobileNo, "231", '2', '3');
  }

  /** The `by_name` example: "MoHAn" matches "Mohan" by name and matches neither field of "Ramesh". */
  lemma ByNameIgnoresCase()
    ensures ByName(map[1 := Mohan, 3 := Ramesh], "MoHAn") == {1}
  {
    MohanMatchesByName();
    RameshMissesMohan();
    ByNameExactly(map[1 := Mohan, 3 := Ramesh], "MoHAn", {1});
  }

  /** The `by_name` example: "231" matches the mobile number "1251231231" only. */
  lemma ByNameMatchesMobile()
    ensures ByName(map[1 := Mohan, 2 := MohanPandey], "231") == {1}
  {
    MohanMatchesByMobile();
    MohanPandeyMisses231();
    ByNameExactly(map[1 := Mohan, 2 := MohanPandey], "231", {1});
  }
}

=== FILE: customer_group.dfy ===
/** The `CustomerGroup` model (app/models/customer_group.rb): validations, scopes and the destroy guard. */
module CustomerGroupModel {
  import opened Sequences
  import opened Records
  import opened Text

  const NameNotUnique := "Name should be uniq, Group already present with same name."
  const CantDeleteDefault := "you can't delete default user group"

  /** Another group already uses `name`, compared case-insensitively. */
  predicate NameTaken(groups: Groups, id: GroupId, name: string) {
    exists h :: h in groups && h != id && SameIgnoringCase(groups[h].name, name)
  }

  /** Full messages of the validations on `name`, for `g` saved under `id`. */
  function Errors(groups: Groups, id: GroupId, g: CustomerGroup): (errs: seq<string>)
    ensures errs == [] <==> !IsBlank(g.name) && 3 <= |g.name| <= 50 && !NameTaken(groups, id, g.name)
    ensures NameTaken(groups, id, g.name) ==> NameNotUnique in errs
  {
    PresenceErrors("Name", g.name)
    + LengthErrors("Name", g.name)
    + (if NameTaken(groups, id, g.name) then [NameNotUnique] else [])
  }

  /** The `default` scope: the groups flagged `is_default`. */
  function DefaultGroups(groups: Groups): (r: set<GroupId>)
    ensures forall g :: g in r <==> g in groups && groups[g].isDefault
    ensures r != {} <==> HasDefault(groups)
  {
    set g | g in groups && groups[g].isDefault
  }

  /** `CustomerGroup.default.first.id`: `first` takes the lowest primary key. */
  function DefaultGroupId(groups: Groups): (d: GroupId)
    requires HasDefault(groups)
    ensures d in groups && groups[d].isDefault
    ensures forall g :: g in groups && groups[g].isDefault ==> d <= g
  {
    var defaults := DefaultGroups(groups);
    MinimumExists(defaults);
    var d :| d in defaults && forall g :: g in defaults ==> d <= g;
    d
  }

  /** The `by_name` filter on one row: `lower(name) ilike '%term%'`. */
  predicate Matches(g: CustomerGroup, term: string) {
    Contains(Lower(g.name), Lower(term))
  }

  /** The `by_name` scope. */
  function ByName(groups: Groups, term: string): set<GroupId> {
    set g | g in groups && Matches(groups[g], term)
  }

  /** `ByName` is exactly the rows of `found` when they match and no other row does. */
  lemma ByNameExactly(groups: Groups, term: string, found: set<GroupId>)
    requires found <= groups.Keys
    requires forall g :: g in found ==> Matches(groups[g], term)
    requires forall g :: g in groups && g !in found ==> !Matches(groups[g], term)
    ensures ByName(groups, term) == found
  {
  }

  /**
   * `ilike` ignores case on both sides, so terms that differ only in case
   * find the same groups.
   */
  lemma ByNameIgnoresTermCase(groups: Groups, t1: string, t2: string)
    requires Lower(t1) == Lower(t2)
    ensures ByName(groups, t1) == ByName(groups, t2)
  {
  }

  /** A group whose name contains the term verbatim is found, whatever the case of either. */
  lemma ByNameFindsVerbatim(groups: Groups, term: string)
    ensures forall g :: g in groups && Contains(groups[g].name, term) ==> g in ByName(groups, term)
  {
    forall g | g in groups && Contains(groups[g].name, term) ensures Matches(groups[g], term) {
      ContainsLowered(groups[g].name, term);
    }
  }

  /** A longer term narrows the search: whatever `term` finds, any part `part` of it finds too. */
  lemma ByNameNarrows(groups: Groups, term: string, part: string)
    requires Contains(term, part)
    ensures ByName(groups, term) <= ByName(groups, part)
  {
    ContainsLowered(term, part);
    forall g | g in ByName(groups, term) ensures Matches(groups[g], part) {
      ContainsTransitive(Lower(groups[g].name), Lower(term), Lower(part));
    }
  }

  /** The `before_destroy` guard: the messages left in `errors`; any message aborts. */
  function DestroyErrors(g: CustomerGroup): (errs: seq<string>)
    ensures errs == [] <==> !g.isDefault
  {
    if g.isDefault then [CantDeleteDefault] else []
  }

  /** `destroy`: the table afterwards and the messages in `errors`. */
  function Destroy(groups: Groups, gid: GroupId): (r: (Groups, seq<string>))
    requires gid in groups
    ensures groups[gid].isDefault ==> r.0 == groups && r.1 == [CantDeleteDefault]
    ensures !groups[gid].isDefault ==> r.0 == groups - {gid} && r.0.Keys == groups.Keys - {gid} && r.1 == []
    ensures |r.0| == if groups[gid].isDefault then |groups| else |groups| - 1
  {
    var errs := DestroyErrors(groups[gid]);
    if errs == [] then
      var r := groups - {gid};
      assert r.Keys == groups.Keys - {gid};
      (r, [])
    else (groups, errs)
  }

  const Cately := CustomerGroup("Cately Yadav", false)
  const Mark := CustomerGroup("Mark Sinha", true)
  const Laila := CustomerGroup("Laila Ansari", true)
  const Rachi := CustomerGroup("Rachi Methew", false)
  const Archi := CustomerGroup("Archi Michael", false)

  lemma LailaMatches()
    ensures Matches(Laila, "laila")
  {
    assert Lower("laila") == "laila";
    assert Lower(Laila.name)[..5] == "laila";
    assert OccursAt(Lower(Laila.name), Lower("laila"), 0);
  }

  lemma OthersMissLaila()
    ensures !Matches(Cately, "laila") && !Matches(Mark, "laila")
  {
    assert CaselessPairFreeFrom("Cately Yadav", 'l', 'a', 0);
    NoCaselessOccurrence(Cately.name, "laila", 'l', 'a');
    assert CaselessPairFreeFrom("Mark Sinha", 'l', 'a', 0);
    NoCaselessOccurrence(Mark.name, "laila", 'l', 'a');
  }

  lemma ArchiMatches()
    ensures Matches(Archi, "ar")
  {
    assert Lower("ar") == "ar";
    assert Lower(Archi.name)[..2] == "ar";
    assert OccursAt(Lower(Archi.name), Lower("ar"), 0);
  }

  lemma RachiMisses()
    ensures !Matches(Rachi, "ar")
  {
    assert CaselessPairFreeFrom("Rachi Methew", 'a', 'r', 0);
    NoCaselessOccurrence(Rachi.name, "ar", 'a', 'r');
  }

  /** The `by_name` example: "laila" finds "Laila Ansari" and neither "Cately Yadav" nor "Mark Sinha". */
  lemma ByNameFindsByName()
    ensures ByName(map[1 := Cately, 2 := Mark, 3 := Laila], "laila") == {3}
  {
    LailaMatches();
    OthersMissLaila();
    ByNameExactly(map[1 := Cately, 2 := Mark, 3 := Laila], "laila", {3});
  }

  /** The `by_name` example: "ar" finds "Archi Michael" but not "Rachi Methew". */
  lemma ByNameMatchesSubstring()
    ensures ByName(map[4 := Rachi, 5 := Archi], "ar") == {5}
  {
    ArchiMatches();
    RachiMisses();
    ByNameExactly(map[4 := Rachi, 5 := Archi], "ar", {5});
  }
}

=== FILE: customer_groups_create.dfy ===
/**
 * `CustomerGroups::Create` (app/operations/customer_groups/create.rb). In one
 * transaction: save the new group, move the listed customers into it until
 * one is refused, reset the groups every customer held before and then the
 * new group; when any message was recorded, roll everything back.
 */
module CustomerGroupsCreate {
  import opened Sequences
  import opened Records
  import opened ErrorTracking
  import opened Persistence
  import opened ResetCustomerPosition
  import CustomerGroupModel

  const UnableToAssign := "Unable to assign customer to customer group."

  /**
   * `reset_customer_position`: the groups `held` are reset, then the group
   * `gid`; every message is a refused position write.
   */
  function ResetHeldThenNew(cs: Customers, groups: Groups, refused: set<CustomerId>, held: set<GroupId>, gid: GroupId): (s: Step)
    ensures s.rows.Keys == cs.Keys
    ensures s.messages == Repeat(UnableToUpdatePosition, |s.messages|)
  {
    var first := ResetGroups(cs, held * groups.Keys, refused);
    var m1 := ResetMessages(cs, held * groups.Keys, refused);
    var m2 := ResetMessages(first, {gid} * groups.Keys, refused);
    RepeatAdd(UnableToUpdatePosition, |m1|, |m2|);
    Step(ResetGroups(first, {gid} * groups.Keys, refused), m1 + m2)
  }

  /**
   * `assign_group_to_customers` when no listed customer is refused: the
   * listed customers move into `gid`, then the groups held by every customer
   * beforehand are reset, then the group `gid`.
   */
  function Assigned(cs: Customers, groups: Groups, refused: set<CustomerId>, ids: set<CustomerId>, gid: GroupId): (s: Step)
    ensures s.rows.Keys == cs.Keys
  {
    ResetHeldThenNew(Reassigned(cs, Listed(cs, ids), gid), groups, refused, GroupsOf(cs, cs.Keys), gid)
  }

  /** The messages of an assignment that stopped at a refused customer: the one notice, then only reset messages. */
  predicate StoppedMessages(prefix: seq<string>, errors: seq<string>) {
    |errors| > |prefix| && errors == prefix + [UnableToAssign] + Repeat(UnableToUpdatePosition, |errors| - |prefix| - 1)
  }

  /** The notice followed by reset messages is what a stopped assignment records. */
  lemma StoppedThenReset(before: seq<string>, resets: seq<string>)
    requires resets == Repeat(UnableToUpdatePosition, |resets|)
    ensures StoppedMessages(before, before + [UnableToAssign] + resets)
  {
  }

  /**
   * An assignment that nothing refuses puts every listed customer into the
   * new group and leaves every other customer in its group.
   */
  lemma AssignedMembership(cs: Customers, groups: Groups, refused: set<CustomerId>, ids: set<CustomerId>, gid: GroupId)
    ensures var r := Assigned(cs, groups, refused, ids, gid).rows;
      forall c :: c in cs ==> r[c].groupId == (if c in ids then gid else cs[c].groupId)
  {
    var moved := Reassigned(cs, Listed(cs, ids), gid);
    var held := GroupsOf(cs, cs.Keys) * groups.Keys;
    var first := ResetGroups(moved, held, refused);
    ResetKeepsMembership(moved, held, refused);
    ResetKeepsMembership(first, {gid} * groups.Keys, refused);
  }

  /** Moving customers into an existing group keeps every customer's group in the table. */
  lemma AssignedKeepsLinked(cs: Customers, groups: Groups, refused: set<CustomerId>, ids: set<CustomerId>, gid: GroupId)
    requires Linked(cs, groups) && gid in groups
    ensures Linked(Assigned(cs, groups, refused, ids, gid).rows, groups)
  {
    AssignedMembership(cs, groups, refused, ids, gid);
  }

  /** With no customer listed and no write refused, the assignment records no message. */
  lemma AssignedNoneQuiet(cs: Customers, groups: Groups, gid: GroupId)
    ensures Assigned(cs, groups, {}, {}, gid).messages == []
  {
    var moved := Reassigned(cs, Listed(cs, {}), gid);
    var held := GroupsOf(cs, cs.Keys) * groups.Keys;
    assert FailedWrites(moved, held, {}) == {};
    assert FailedWrites(ResetGroups(moved, held, {}), {gid} * groups.Keys, {}) == {};
  }

  /**
   * `update_customers`: the listed customers in no particular order, each
   * moved into `gid`, stopping at the first one the validations refuse; a
   * refusal adds one notice. Which customers are refused does not depend on
   * the order, since validation ignores the other rows' groups.
   */
  method UpdateCustomers(store: Store, listed: set<CustomerId>, gid: GroupId, tracker: ErrorTracker)
    requires listed <= store.customers.Keys
    modifies store`customers, tracker
    ensures store.customers.Keys == old(store.customers).Keys
    ensures MoveFailures(old(store.customers), store.groups, listed, gid) == {} ==>
      store.customers == Reassigned(old(store.customers), listed, gid) && tracker.errors == old(tracker.errors)
    ensures MoveFailures(old(store.customers), store.groups, listed, gid) != {} ==>
      tracker.errors == old(tracker.errors) + [UnableToAssign]
  {
    ghost var cs0 := store.customers;
    var todo := listed;
    ghost var done: set<CustomerId> := {};
    var savedAll := true;
    assert Moved(cs0, store.groups, done, gid) == cs0;
    while todo != {}
      invariant todo <= listed && done == listed - todo
      invariant store.customers == Moved(cs0, store.groups, done, gid)
      invariant savedAll && MoveFailures(cs0, store.groups, done, gid) == {}
      invariant tracker.errors == old(tracker.errors)
      decreases todo
    {
      var c :| c in todo;
      var errs := MoveChecked(store, cs0, done, c, gid);
      if errs != [] {
        savedAll := false;
        assert c in MoveFailures(cs0, store.groups, listed, gid);
        break;
      }
      MoveFailuresGrow(cs0, store.groups, done, c, gid);
      todo := todo - {c};
      done := done + {c};
    }
    if savedAll {
      assert done == listed;
      MovedWithoutFailures(cs0, store.groups, listed, gid);
      return;
    }
    tracker.AddErrors(Text(UnableToAssign));
  }

  /** `reset_customer_position`: `ResetCustomerPosition.call` on `held`, then on `[gid]`. */
  method ResetCustomerPositions(store: Store, held: set<GroupId>, gid: GroupId, tracker: ErrorTracker)
    modifies store`customers, tracker
    ensures var s := ResetHeldThenNew(old(store.customers), store.groups, store.unwritable, held, gid);
      store.customers == s.rows && tracker.errors == old(tracker.errors) + s.messages
  {
    ghost var e0, cs0 := tracker.errors, store.customers;
    ghost var m1 := ResetMessages(cs0, held * store.groups.Keys, store.unwritable);
    var _ := ResetCustomerPosition.Call(store, held, tracker);
    ghost var m2 := ResetMessages(store.customers, {gid} * store.groups.Keys, store.unwritable);
    var _ := ResetCustomerPosition.Call(store, {gid}, tracker);
    AppendAssoc(e0, m1, m2);
  }

  /**
   * `assign_group_to_customers`: the customers `ids` names move into `gid`,
   * then the groups every customer held beforehand are reset, then `gid`.
   */
  method AssignGroupToCustomers(store: Store, ids: set<CustomerId>, gid: GroupId, tracker: ErrorTracker)
    modifies store`customers, tracker
    ensures AssignRecorded(old(store.customers), store.groups, store.unwritable, ids, gid, old(tracker.errors), tracker.errors)
    ensures MoveFailures(old(store.customers), store.groups, Listed(old(store.customers), ids), gid) == {} ==>
      store.customers == Assigned(old(store.customers), store.groups, store.unwritable, ids, gid).rows
  {
    ghost var e0 := tracker.errors;
    var listed := Listed(store.customers, ids);
    var held := GroupsOf(store.customers, store.customers.Keys);
    UpdateCustomers(store, listed, gid, tracker);
    ghost var s := ResetHeldThenNew(store.customers, store.groups, store.unwritable, held, gid);
    ResetCustomerPositions(store, held, gid, tracker);
    if MoveFailures(old(store.customers), store.groups, listed, gid) != {} {
      StoppedThenReset(e0, s.messages);
    }
  }

  /** Saving a group under the next id and assigning customers to it keeps the store consistent. */
  lemma CreatedConsistent(cs: Customers, groups: Groups, refused: set<CustomerId>, g: CustomerGroup,
                          ids: set<CustomerId>, gid: GroupId, bound: nat)
    requires Consistent(cs, groups, bound, gid)
    ensures Consistent(Assigned(cs, groups[gid := g], refused, ids, gid).rows, groups[gid := g], bound, gid + 1)
  {
    var groups1 := groups[gid := g];
    var d :| d in groups && groups[d].isDefault;
    assert d in groups1 && groups1[d].isDefault;
    AssignedKeepsLinked(cs, groups1, refused, ids, gid);
  }

  /**
   * What assigning the customers `ids` to `gid` records after the messages
   * `before`: when a listed customer is refused, the one notice and reset
   * messages; otherwise the messages of the resets.
   */
  predicate AssignRecorded(cs: Customers, groups: Groups, refused: set<CustomerId>, ids: set<CustomerId>, gid: GroupId,
                           before: seq<string>, after: seq<string>)
  {
    if MoveFailures(cs, groups, Listed(cs, ids), gid) == {} then after == before + Assigned(cs, groups, refused, ids, gid).messages
    else StoppedMessages(before, after)
  }

  /** An assignment that leaves no message refused no customer. */
  lemma QuietAssignMovesAll(cs: Customers, groups: Groups, refused: set<CustomerId>, ids: set<CustomerId>, gid: GroupId,
                            before: seq<string>, after: seq<string>)
    requires AssignRecorded(cs, groups, refused, ids, gid, before, after) && after == []
    ensures MoveFailures(cs, groups, Listed(cs, ids), gid) == {}
  {
  }

  /**
   * What saving the group under `gid` and assigning the customers record, from
   * the rows `cs`, the groups `groups` and the messages `before`: the id
   * sequence `next` moves on only when the group is saved; a refused group
   * records its validation messages, and a saved one what the assignment records.
   */
  predicate Recorded(cs: Customers, groups: Groups, refused: set<CustomerId>, g: CustomerGroup, ids: set<CustomerId>,
                     gid: GroupId, before: seq<string>, next: nat, after: seq<string>)
  {
    var errs := CustomerGroupModel.Errors(groups, gid, g);
    && next == (if errs == [] then gid + 1 else gid)
    && (errs != [] ==> after == before + errs)
    && (errs == [] ==> AssignRecorded(cs, groups[gid := g], refused, ids, gid, before, after))
  }

  /**
   * A saved group with no customer listed and no write refused records
   * nothing, so the call succeeds exactly when the tracker was empty.
   */
  lemma NoCustomersRecordsNothing(cs: Customers, groups: Groups, g: CustomerGroup, gid: GroupId,
                                  before: seq<string>, next: nat, after: seq<string>)
    requires CustomerGroupModel.Errors(groups, gid, g) == []
    requires Recorded(cs, groups, {}, g, {}, gid, before, next, after)
    ensures after == before && next == gid + 1
  {
    assert Listed(cs, {}) == {};
    assert MoveFailures(cs, groups[gid := g], {}, gid) == {};
    AssignedNoneQuiet(cs, groups[gid := g], gid);
  }

  /**
   * The body of the transaction, up to the final check: `save_customer_group`,
   * then `assign_group_to_customers` once the group is saved.
   */
  method Attempt(store: Store, g: CustomerGroup, ids: set<CustomerId>, tracker: ErrorTracker) returns (gid: GroupId)
    requires store.Valid()
    modifies store`customers, store`groups, store`nextGroupId, tracker
    ensures gid == old(store.nextGroupId)
    ensures Recorded(old(store.customers), old(store.groups), store.unwritable, g, ids, gid,
                     old(tracker.errors), store.nextGroupId, tracker.errors)
    ensures tracker.errors == [] ==>
      && store.customers == Assigned(old(store.customers), old(store.groups)[gid := g], store.unwritable, ids, gid).rows
      && store.groups == old(store.groups)[gid := g]
      && Consistent(store.customers, store.groups, store.nextCustomerId, store.nextGroupId)
  {
    var customers, groups := store.customers, store.groups;
    ghost var bound := store.nextCustomerId;
    var errs;
    gid, errs := InsertGroup(store, g);
    if errs != [] {
      tracker.AddErrors(Texts(errs));
      return;
    }
    AssignGroupToCustomers(store, ids, gid, tracker);
    if tracker.errors == [] {
      QuietAssignMovesAll(customers, store.groups, store.unwritable, ids, gid, old(tracker.errors), tracker.errors);
      CreatedConsistent(customers, groups, store.unwritable, g, ids, gid, bound);
      assert store.groups == groups[gid := g];
      assert store.customers == Assigned(customers, groups[gid := g], store.unwritable, ids, gid).rows;
      assert store.nextCustomerId == bound && store.nextGroupId == gid + 1;
    }
  }

  /**
   * `CustomerGroups::Create.call`: a group the validations refuse records
   * their messages and writes nothing; otherwise the group takes the next
   * id, and the call commits exactly when the tracker holds no message,
   * including one added before the call, and otherwise rolls back. The id
   * stays taken after a rollback.
   */
  method Call(store: Store, g: CustomerGroup, ids: set<CustomerId>, tracker: ErrorTracker) returns (env: Envelope)
    requires store.Valid()
    modifies store`customers, store`groups, store`nextGroupId, tracker
    ensures var gid := old(store.nextGroupId);
      && Recorded(old(store.customers), old(store.groups), store.unwritable, g, ids, gid,
                  old(tracker.errors), store.nextGroupId, tracker.errors)
      && (env.success <==> tracker.errors == [])
      && (env.success ==>
            && store.customers == Assigned(old(store.customers), old(store.groups)[gid := g], store.unwritable, ids, gid).rows
            && store.groups == old(store.groups)[gid := g]
            && env == Envelope(true, [], GroupRecord(gid, g)))
    ensures !env.success ==>
      && store.customers == old(store.customers) && store.groups == old(store.groups)
      && env == Envelope(false, tracker.ErrorList(), Nil)
    ensures store.Valid()
  {
    var customers, groups := store.customers, store.groups;
    var gid := Attempt(store, g, ids, tracker);
    var committed := Conclude(store, customers, groups, tracker);
    env := if committed then Envelope(true, [], GroupRecord(gid, g)) else Envelope(false, tracker.ErrorList(), Nil);
  }
}

=== FILE: customer_groups_delete.dfy ===
/**
 * `CustomerGroups::Delete` (app/operations/customer_groups/delete.rb). In one
 * transaction: refuse the default group; move the group's discarded
 * customers to the default group in bulk and its kept customers one by one,
 * stopping at the first refusal; reset the default group; destroy the group;
 * when any message was recorded, roll everything back.
 */
module CustomerGroupsDelete {
  import opened Records
  import opened ErrorTracking
  import opened Persistence
  import opened ResetCustomerPosition
  import opened CustomerGroupModel

  const CantDeleteDefaultGroup := "You can't delete default customer group"

  /**
   * `customers.discarded.update_all(customer_group_id: d)`: a bulk write that
   * runs no validation, so every discarded customer of `gid` moves.
   */
  function BulkMoved(cs: Customers, gid: GroupId, d: GroupId): (r: Customers)
    ensures r.Keys == cs.Keys
  {
    Reassigned(cs, Members(cs, gid, Discarded), d)
  }

  /**
   * A delete that no kept customer refuses: every customer of `gid`,
   * discarded or kept, moves to the default group `d`, then `d` is reset.
   */
  function Vacated(cs: Customers, groups: Groups, refused: set<CustomerId>, gid: GroupId, d: GroupId): (s: Step)
    ensures s.rows.Keys == cs.Keys
  {
    var moved := Reassigned(cs, Members(cs, gid, Everyone), d);
    Step(ResetGroups(moved, {d} * groups.Keys, refused), ResetMessages(moved, {d} * groups.Keys, refused))
  }

  /** The bulk move and then the kept customers' moves put the whole group into `d`. */
  lemma BulkThenKept(cs: Customers, gid: GroupId, d: GroupId)
    requires d != gid
    ensures var bulk := BulkMoved(cs, gid, d);
      Reassigned(bulk, Members(bulk, gid, Kept), d) == Reassigned(cs, Members(cs, gid, Everyone), d)
  {
    var bulk := BulkMoved(cs, gid, d);
    assert Members(bulk, gid, Kept) == Members(cs, gid, Kept);
  }

  /**
   * The kept customer `c` aborted the loop: it is one the validations refuse,
   * and its messages are the only ones added.
   */
  predicate AbortedBy(cs: Customers, groups: Groups, kept: set<CustomerId>, d: GroupId,
                      before: seq<string>, after: seq<string>)
  {
    exists c :: c in MoveFailures(cs, groups, kept, d) && after == before + MoveErrors(cs, groups, c, d)
  }

  /**
   * `customers.kept.each { update(customer_group_id: d) }`: the kept customers
   * in no particular order; the first refusal adds that customer's messages
   * and aborts. Whether the loop aborts does not depend on the order; which
   * refused customer it reports does.
   */
  method MoveKept(store: Store, kept: set<CustomerId>, d: GroupId, tracker: ErrorTracker) returns (aborted: bool)
    requires kept <= store.customers.Keys
    modifies store`customers, tracker
    ensures aborted <==> MoveFailures(old(store.customers), store.groups, kept, d) != {}
    ensures !aborted ==> store.customers == Reassigned(old(store.customers), kept, d) && tracker.errors == old(tracker.errors)
    ensures aborted ==> AbortedBy(old(store.customers), store.groups, kept, d, old(tracker.errors), tracker.errors)
    ensures aborted ==> tracker.errors != []
  {
    ghost var cs0 := store.customers;
    var todo := kept;
    ghost var done: set<CustomerId> := {};
    assert Moved(cs0, store.groups, done, d) == cs0;
    while todo != {}
      invariant todo <= kept && done == kept - todo
      invariant store.customers == Moved(cs0, store.groups, done, d)
      invariant MoveFailures(cs0, store.groups, done, d) == {}
      invariant tracker.errors == old(tracker.errors)
      decreases todo
    {
      var c :| c in todo;
      var errs := MoveChecked(store, cs0, done, c, d);
      if errs != [] {
        tracker.AddErrors(Texts(errs));
        assert c in MoveFailures(cs0, store.groups, kept, d);
        return true;
      }
      MoveFailuresGrow(cs0, store.groups, done, c, d);
      todo := todo - {c};
      done := done + {c};
    }
    assert done == kept;
    MovedWithoutFailures(cs0, store.groups, kept, d);
    return false;
  }

  /**
   * What moving the customers of `gid` to the default group `d` records after
   * the messages `before`: a refused kept customer records its own messages,
   * and a full move the messages of the reset.
   */
  predicate AssignRecorded(cs: Customers, groups: Groups, refused: set<CustomerId>, gid: GroupId, d: GroupId,
                           before: seq<string>, after: seq<string>)
  {
    var bulk := BulkMoved(cs, gid, d);
    var kept := Members(bulk, gid, Kept);
    if MoveFailures(bulk, groups, kept, d) == {} then after == before + Vacated(cs, groups, refused, gid, d).messages
    else AbortedBy(bulk, groups, kept, d, before, after)
  }

  /**
   * What deleting `gid` records after the messages `before`: the default
   * group is refused with one message; any other group records what moving
   * its customers to the default group records.
   */
  predicate Recorded(cs: Customers, groups: Groups, refused: set<CustomerId>, gid: GroupId,
                     before: seq<string>, after: seq<string>)
    requires HasDefault(groups) && gid in groups
  {
    if groups[gid].isDefault then after == before + [CantDeleteDefaultGroup]
    else AssignRecorded(cs, groups, refused, gid, DefaultGroupId(groups), before, after)
  }

  /**
   * After a delete nothing refused, every customer of the group, discarded
   * or kept, is in the default group; every other customer keeps its group,
   * and no customer is added, removed, discarded or restored.
   */
  lemma VacatedMembership(cs: Customers, groups: Groups, refused: set<CustomerId>, gid: GroupId, d: GroupId)
    ensures var r := Vacated(cs, groups, refused, gid, d).rows;
      forall c :: c in cs ==>
        && r[c].groupId == (if cs[c].groupId == gid then d else cs[c].groupId)
        && r[c].discarded == cs[c].discarded
  {
    ResetKeepsMembership(Reassigned(cs, Members(cs, gid, Everyone), d), {d} * groups.Keys, refused);
  }

  /**
   * After a delete nothing refused, the default group's kept customers whose
   * position writes apply hold the positions 1..N in their `(position, id)`
   * order from just after the move.
   */
  lemma VacatedDefaultInOrder(cs: Customers, groups: Groups, refused: set<CustomerId>, gid: GroupId, d: GroupId)
    requires d in groups
    requires forall c :: c in Members(Reassigned(cs, Members(cs, gid, Everyone), d), d, Kept) ==> c !in refused
    ensures var moved := Reassigned(cs, Members(cs, gid, Everyone), d);
      var s, r := Members(moved, d, Kept), Vacated(cs, groups, refused, gid, d).rows;
      && (forall a, b :: a in s && b in s && Before(moved, a, b) ==> r[a].position.At? && r[a].position.n < r[b].position.n)
      && (forall p :: p in Positions(r, s) <==> p.At? && 1 <= p.n <= |s|)
  {
    var moved := Reassigned(cs, Members(cs, gid, Everyone), d);
    ResetNumbersPartitionInOrder(moved, {d} * groups.Keys, refused, d, Kept);
  }

  /**
   * Deleting a group that is not the default, once its customers are in the
   * default group, keeps the store consistent: no customer is left pointing
   * at the deleted group, and the default group survives.
   */
  lemma VacatedConsistent(cs: Customers, groups: Groups, refused: set<CustomerId>, gid: GroupId, nextC: nat, nextG: nat)
    requires Consistent(cs, groups, nextC, nextG)
    requires gid in groups && !groups[gid].isDefault
    ensures Consistent(Vacated(cs, groups, refused, gid, DefaultGroupId(groups)).rows, groups - {gid}, nextC, nextG)
  {
    var d := DefaultGroupId(groups);
    var rest := groups - {gid};
    assert d in rest && rest[d].isDefault;
    VacatedMembership(cs, groups, refused, gid, d);
  }

  /**
   * `assign_customers_to_default_group`: the discarded customers of `gid` move
   * in bulk, the kept ones one by one until a refusal aborts; after a full
   * move the default group `d` is reset.
   */
  method AssignCustomersToDefaultGroup(store: Store, gid: GroupId, d: GroupId, tracker: ErrorTracker) returns (aborted: bool)
    requires d != gid
    modifies store`customers, tracker
    ensures AssignRecorded(old(store.customers), store.groups, store.unwritable, gid, d, old(tracker.errors), tracker.errors)
    ensures aborted ==> tracker.errors != []
    ensures !aborted ==> store.customers == Vacated(old(store.customers), store.groups, store.unwritable, gid, d).rows
  {
    ghost var customers := store.customers;
    store.customers := BulkMoved(store.customers, gid, d);
    aborted := MoveKept(store, Members(store.customers, gid, Kept), d, tracker);
    if aborted {
      return;
    }
    BulkThenKept(customers, gid, d);
    var _ := ResetCustomerPosition.Call(store, {d}, tracker);
  }

  /**
   * The body of the transaction, up to the final check:
   * `validate_default_customer_group!`, then `delete_customer_group`.
   */
  method Attempt(store: Store, gid: GroupId, tracker: ErrorTracker)
    requires store.Valid() && gid in store.groups
    modifies store`customers, store`groups, tracker
    ensures Recorded(old(store.customers), old(store.groups), store.unwritable, gid, old(tracker.errors), tracker.errors)
    ensures tracker.errors == [] ==>
      && !old(store.groups)[gid].isDefault
      && store.customers == Vacated(old(store.customers), old(store.groups), store.unwritable, gid, DefaultGroupId(old(store.groups))).rows
      && store.groups == old(store.groups) - {gid}
      && Consistent(store.customers, store.groups, store.nextCustomerId, store.nextGroupId)
  {
    var customers, groups := store.customers, store.groups;
    ghost var nextC, nextG := store.nextCustomerId, store.nextGroupId;
    assert Consistent(customers, groups, nextC, nextG);
    if groups[gid].isDefault {
      tracker.AddErrors(Text(CantDeleteDefaultGroup));
      return;
    }
    var d := DefaultGroupId(groups);
    var aborted := AssignCustomersToDefaultGroup(store, gid, d, tracker);
    if aborted {
      return;
    }
    // `customer_group.destroy`: the guard passes a group that is not the
    // default, and adding no message is what skipping `add_errors` does.
    ghost var rows := store.customers;
    var errs := DestroyGroup(store, gid);
    assert store.groups == groups - {gid} && errs == [];
    tracker.AddErrors(Texts(errs));
    if tracker.errors == [] {
      VacatedConsistent(customers, groups, store.unwritable, gid, nextC, nextG);
      assert store.customers == rows == Vacated(customers, groups, store.unwritable, gid, d).rows;
      assert store.nextCustomerId == nextC && store.nextGroupId == nextG;
    }
  }

  /**
   * `CustomerGroups::Delete.call`: the default group is refused; otherwise
   * the call commits exactly when the tracker holds no message, including
   * one added before the call, and otherwise rolls back and returns `[]`.
   */
  method Call(store: Store, gid: GroupId, tracker: ErrorTracker) returns (env: Envelope)
    requires store.Valid() && gid in store.groups
    modifies store`customers, store`groups, tracker
    ensures Recorded(old(store.customers), old(store.groups), store.unwritable, gid, old(tracker.errors), tracker.errors)
    ensures env.success <==> tracker.errors == []
    ensures env.success ==>
      && store.customers == Vacated(old(store.customers), old(store.groups), store.unwritable, gid, DefaultGroupId(old(store.groups))).rows
      && store.groups == old(store.groups) - {gid}
      && env == Envelope(true, [], GroupRecord(gid, old(store.groups)[gid]))
    ensures !env.success ==>
      && store.customers == old(store.customers) && store.groups == old(store.groups)
      && env == Envelope(false, tracker.ErrorList(), EmptyList)
    ensures store.Valid()
  {
    var customers, groups := store.customers, store.groups;
    var group := groups[gid];
    Attempt(store, gid, tracker);
    var committed := Conclude(store, customers, groups, tracker);
    env := if committed then Envelope(true, [], GroupRecord(gid, group)) else Envelope(false, tracker.ErrorList(), EmptyList);
  }
}

=== FILE: customer_groups_update.dfy ===
/**
 * `CustomerGroups::Update` (app/operations/customer_groups/update.rb). In one
 * transaction: check the requested position, rename the group, move the
 * removed customers to the default group, move the listed customers into the
 * group, apply the requested position; when any message was recorded, roll
 * everything back.
 */
module CustomerGroupsUpdate {
  import opened Sequences
  import opened Records
  import opened Text
  import opened ErrorTracking
  import opened Persistence
  import opened ResetCustomerPosition
  import CustomerModel
  import CustomerGroupModel

  const InvalidPositionProvided := "Invalid position provided"

  /** One entry of `customer_positions`. */
  datatype CustomerPosition = CustomerPosition(customerId: CustomerId, position: int)

  /**
   * The arguments. `where(id: ...)` reads the id lists as sets; a missing list
   * selects nothing and a missing name is blank.
   */
  datatype Args = Args(
    customerIds: set<CustomerId>,
    removeCustomerIds: set<CustomerId>,
    name: string,
    customerPositions: seq<CustomerPosition>)

  /** The state an update leaves when it commits, and the messages it records on the way. */
  datatype Outcome = Outcome(customers: Customers, groups: Groups, messages: seq<string>)

  // ---------------------------------------------------------------------
  // validate_customer_postions

  /** `customer_positions.pluck(:customer_id)`. */
  function PositionCustomerIds(ps: seq<CustomerPosition>): (ids: seq<CustomerId>)
    ensures |ids| == |ps|
  {
    if ps == [] then [] else [ps[0].customerId] + PositionCustomerIds(ps[1..])
  }

  /**
   * `valid_positions?`: exactly one entry, and its position (the minimum and
   * the maximum of a one-element list) lies between 1 and the number of the
   * group's customers.
   */
  predicate ValidPositions(cs: Customers, gid: GroupId, ps: seq<CustomerPosition>) {
    |ps| == 1 && 1 <= ps[0].position <= |Members(cs, gid, Everyone)|
  }

  /** `valid_customers?`: no customer id is listed twice. */
  predicate ValidCustomers(ps: seq<CustomerPosition>) {
    |PositionCustomerIds(ps)| == |Dedup(PositionCustomerIds(ps))|
  }

  /** `validate_customer_postions`: a blank list passes; any other must pass both checks. */
  predicate PositionsAccepted(cs: Customers, gid: GroupId, ps: seq<CustomerPosition>) {
    ps == [] || (ValidPositions(cs, gid, ps) && ValidCustomers(ps))
  }

  /**
   * The duplicate check never refuses what the position check admits: a
   * list is accepted exactly when it is empty or holds one entry whose
   * position is within the group.
   */
  lemma PositionsAcceptedIff(cs: Customers, gid: GroupId, ps: seq<CustomerPosition>)
    ensures PositionsAccepted(cs, gid, ps) <==>
      ps == [] || (|ps| == 1 && 1 <= ps[0].position <= |Members(cs, gid, Everyone)|)
  {
    if |ps| == 1 {
      DedupSameLengthIffNoDuplicates(PositionCustomerIds(ps));
    }
  }

  // ---------------------------------------------------------------------
  // update_customer_group_name

  /** The group as the rename leaves it in memory: a non-blank name is assigned whether or not it saves. */
  function NamedGroup(g: CustomerGroup, name: string): CustomerGroup {
    if IsBlank(name) then g else g.(name := name)
  }

  /** The messages of the rename: none for a blank name, else those of `update(name:)`. */
  function RenameMessages(groups: Groups, gid: GroupId, name: string): seq<string> {
    if gid in groups && !IsBlank(name) then CustomerGroupModel.Errors(groups, gid, NamedGroup(groups[gid], name)) else []
  }

  /** The table after the rename: the new name is written only when its validations pass. */
  function Renamed(groups: Groups, gid: GroupId, name: string): (r: Groups)
    ensures r.Keys == groups.Keys
  {
    if gid in groups && RenameMessages(groups, gid, name) == [] then groups[gid := NamedGroup(groups[gid], name)] else groups
  }

  /** The rename touches no `is_default` flag, so the default group stays the same. */
  lemma RenameKeepsDefault(groups: Groups, gid: GroupId, name: string)
    requires HasDefault(groups)
    ensures HasDefault(Renamed(groups, gid, name))
    ensures CustomerGroupModel.DefaultGroupId(Renamed(groups, gid, name)) == CustomerGroupModel.DefaultGroupId(groups)
  {
    var r := Renamed(groups, gid, name);
    assert forall h :: h in r ==> r[h].isDefault == groups[h].isDefault;
    var d := CustomerGroupModel.DefaultGroupId(groups);
    assert r[d].isDefault;
    var e := CustomerGroupModel.DefaultGroupId(r);
    assert e <= d && d <= e;
  }

  // ---------------------------------------------------------------------
  // remove_customers_from_groups and assign_customers_to_group

  /** `customer_group.customers.where(id: remove_customer_ids)`. */
  function Removed(cs: Customers, gid: GroupId, ids: set<CustomerId>): set<CustomerId> {
    set c | c in cs && cs[c].groupId == gid && c in ids
  }

  /**
   * Removal: the removed customers move to the default group `d` in id order,
   * then the group is reset when any customer was removed.
   */
  function RemoveStep(cs: Customers, groups: Groups, refused: set<CustomerId>, gid: GroupId, ids: set<CustomerId>,
                      d: GroupId, bound: nat): (s: Step)
    ensures s.rows.Keys == cs.Keys
  {
    var removed := Removed(cs, gid, ids);
    var moved := Moved(cs, groups, removed, d);
    var reset := (if removed == {} then {} else {gid}) * groups.Keys;
    Step(ResetGroups(moved, reset, refused),
         MoveMessages(cs, groups, Ascending(removed, bound), d) + ResetMessages(moved, reset, refused))
  }

  /**
   * Assignment: the listed customers move into the group in id order, then
   * the groups they came from are reset.
   */
  function AssignStep(cs: Customers, groups: Groups, refused: set<CustomerId>, gid: GroupId, ids: set<CustomerId>,
                      bound: nat): (s: Step)
    ensures s.rows.Keys == cs.Keys
  {
    var listed := Listed(cs, ids);
    var moved := Moved(cs, groups, listed, gid);
    var reset := GroupsOf(cs, listed) * groups.Keys;
    Step(ResetGroups(moved, reset, refused),
         MoveMessages(cs, groups, Ascending(listed, bound), gid) + ResetMessages(moved, reset, refused))
  }

  // ---------------------------------------------------------------------
  // update_customer_positions

  /** One entry: `update(position:)` on the listed customer when it is in the group. */
  function PositionOne(cs: Customers, groups: Groups, gid: GroupId, p: CustomerPosition): (s: Step)
    ensures s.rows.Keys == cs.Keys
  {
    var c := p.customerId;
    if c in cs && cs[c].groupId == gid then
      var row := cs[c].(position := At(p.position));
      var errs := CustomerModel.Errors(cs, groups, c, row);
      Step(if errs == [] then cs[c := row] else cs, errs)
    else Step(cs, [])
  }

  /** `customer_positions.each`: the entries in order, each on the rows the previous ones left. */
  function Repositioned(cs: Customers, groups: Groups, gid: GroupId, ps: seq<CustomerPosition>): (s: Step)
    ensures s.rows.Keys == cs.Keys
  {
    if ps == [] then Step(cs, [])
    else
      var before := Repositioned(cs, groups, gid, ps[..|ps| - 1]);
      var last := PositionOne(before.rows, groups, gid, ps[|ps| - 1]);
      Step(last.rows, before.messages + last.messages)
  }

  /** Setting positions moves no customer between groups. */
  lemma {:induction false} RepositionedKeepsGroups(cs: Customers, groups: Groups, gid: GroupId, ps: seq<CustomerPosition>)
    ensures forall c :: c in cs ==> Repositioned(cs, groups, gid, ps).rows[c].groupId == cs[c].groupId
    decreases |ps|
  {
    if ps != [] {
      RepositionedKeepsGroups(cs, groups, gid, ps[..|ps| - 1]);
    }
  }

  /**
   * One entry changes at most the listed customer, and only its position,
   * which becomes the requested one; a customer outside `gid`, or an unknown
   * id, leaves every row as it was.
   */
  lemma PositionOneTouchesOnlyListed(cs: Customers, groups: Groups, gid: GroupId, p: CustomerPosition)
    ensures var r, c := PositionOne(cs, groups, gid, p).rows, p.customerId;
      && (forall d :: d in cs && d != c ==> r[d] == cs[d])
      && (c !in cs || cs[c].groupId != gid ==> r == cs)
      && (c in cs ==> r[c].(position := cs[c].position) == cs[c])
      && (c in cs && r[c] != cs[c] ==> r[c].position == At(p.position))
  {
  }

  /** No entry of `ps` names customer `c`. */
  predicate Unlisted(ps: seq<CustomerPosition>, c: CustomerId) {
    forall i :: 0 <= i < |ps| ==> ps[i].customerId != c
  }

  /**
   * The entries change positions only: no row appears, disappears or changes
   * another column, and a customer no entry names, or one outside `gid`,
   * keeps its row.
   */
  lemma {:induction false} RepositionedTouchesOnlyListed(cs: Customers, groups: Groups, gid: GroupId, ps: seq<CustomerPosition>)
    ensures var r := Repositioned(cs, groups, gid, ps).rows;
      && (forall c :: c in cs ==> r[c].(position := cs[c].position) == cs[c])
      && (forall c :: c in cs && (Unlisted(ps, c) || cs[c].groupId != gid) ==> r[c] == cs[c])
    decreases |ps|
  {
    if ps != [] {
      var init := ps[..|ps| - 1];
      RepositionedTouchesOnlyListed(cs, groups, gid, init);
      var before := Repositioned(cs, groups, gid, init).rows;
      PositionOneTouchesOnlyListed(before, groups, gid, ps[|ps| - 1]);
      forall c | c in cs && Unlisted(ps, c) ensures Unlisted(init, c) {
        forall i | 0 <= i < |init| ensures init[i].customerId != c {
          assert init[i] == ps[i];
        }
      }
    }
  }

  // ---------------------------------------------------------------------
  // The whole update

  /** Rename, then removal with `d` the default group's id; the table of groups is final after this. */
  function Front(cs: Customers, groups: Groups, refused: set<CustomerId>, gid: GroupId, args: Args, d: GroupId,
                 bound: nat): (o: Outcome)
    ensures o.customers.Keys == cs.Keys && o.groups.Keys == groups.Keys
  {
    var named := Renamed(groups, gid, args.name);
    var removed := RemoveStep(cs, named, refused, gid, args.removeCustomerIds, d, bound);
    Outcome(removed.rows, named, RenameMessages(groups, gid, args.name) + removed.messages)
  }

  /** Assignment, then the positions, on the groups the rename left. */
  function Back(cs: Customers, groups: Groups, refused: set<CustomerId>, gid: GroupId, args: Args, bound: nat): (s: Step)
    ensures s.rows.Keys == cs.Keys
  {
    var joined := AssignStep(cs, groups, refused, gid, args.customerIds, bound);
    var positioned := Repositioned(joined.rows, groups, gid, args.customerPositions);
    Step(positioned.rows, joined.messages + positioned.messages)
  }

  /** The steps after the position check, in order, each on what the previous one left. */
  function Steps(cs: Customers, groups: Groups, refused: set<CustomerId>, gid: GroupId, args: Args, d: GroupId,
                 bound: nat): (o: Outcome)
    ensures o.customers.Keys == cs.Keys && o.groups.Keys == groups.Keys
  {
    var front := Front(cs, groups, refused, gid, args, d, bound);
    var back := Back(front.customers, front.groups, refused, gid, args, bound);
    Outcome(back.rows, front.groups, front.messages + back.messages)
  }

  /**
   * What the update does in the store `cs`/`groups`, up to the final check:
   * a refused position list stops it before anything is written; otherwise
   * the steps run with the default group looked up first.
   */
  function Pipeline(cs: Customers, groups: Groups, refused: set<CustomerId>, gid: GroupId, args: Args, bound: nat): (o: Outcome)
    requires HasDefault(groups)
  {
    if !PositionsAccepted(cs, gid, args.customerPositions) then Outcome(cs, groups, [InvalidPositionProvided])
    else Steps(cs, groups, refused, gid, args, CustomerGroupModel.DefaultGroupId(groups), bound)
  }

  /** The `result:`: the group as it is in memory, renamed once the position check has passed. */
  function ResultGroup(cs: Customers, groups: Groups, gid: GroupId, args: Args): CustomerGroup
    requires gid in groups
  {
    if PositionsAccepted(cs, gid, args.customerPositions) then NamedGroup(groups[gid], args.name) else groups[gid]
  }

  /** A removal that records no message moves exactly the removed customers, into `d`. */
  lemma RemoveStepMembership(cs: Customers, groups: Groups, refused: set<CustomerId>, gid: GroupId, ids: set<CustomerId>,
                             d: GroupId, bound: nat)
    requires CustomerIdsBelow(cs, bound)
    requires RemoveStep(cs, groups, refused, gid, ids, d, bound).messages == []
    ensures var r := RemoveStep(cs, groups, refused, gid, ids, d, bound).rows;
      forall c :: c in cs ==> r[c].groupId == (if c in Removed(cs, gid, ids) then d else cs[c].groupId)
  {
    var removed := Removed(cs, gid, ids);
    var reset := (if removed == {} then {} else {gid}) * groups.Keys;
    MoveMessagesEmptyIff(cs, groups, removed, d, bound);
    MovedWithoutFailures(cs, groups, removed, d);
    ResetKeepsMembership(Moved(cs, groups, removed, d), reset, refused);
  }

  /** An assignment that records no message moves exactly the listed customers, into the group. */
  lemma AssignStepMembership(cs: Customers, groups: Groups, refused: set<CustomerId>, gid: GroupId, ids: set<CustomerId>,
                             bound: nat)
    requires CustomerIdsBelow(cs, bound)
    requires AssignStep(cs, groups, refused, gid, ids, bound).messages == []
    ensures var r := AssignStep(cs, groups, refused, gid, ids, bound).rows;
      forall c :: c in cs ==> r[c].groupId == (if c in ids then gid else cs[c].groupId)
  {
    var listed := Listed(cs, ids);
    var reset := GroupsOf(cs, listed) * groups.Keys;
    MoveMessagesEmptyIff(cs, groups, listed, gid, bound);
    MovedWithoutFailures(cs, groups, listed, gid);
    ResetKeepsMembership(Moved(cs, groups, listed, gid), reset, refused);
  }

  /**
   * After an update that records no message, each listed customer is in the
   * group, each removed customer that is not also listed is in the default
   * group, and every other customer keeps its group.
   */
  lemma UpdateMembership(cs: Customers, groups: Groups, refused: set<CustomerId>, gid: GroupId, args: Args, bound: nat)
    requires HasDefault(groups) && CustomerIdsBelow(cs, bound)
    requires PositionsAccepted(cs, gid, args.customerPositions)
    requires Pipeline(cs, groups, refused, gid, args, bound).messages == []
    ensures var o := Pipeline(cs, groups, refused, gid, args, bound);
      forall c :: c in cs ==>
        o.customers[c].groupId == (
          if c in args.customerIds then gid
          else if c in Removed(cs, gid, args.removeCustomerIds) then CustomerGroupModel.DefaultGroupId(groups)
          else cs[c].groupId)
  {
    var d := CustomerGroupModel.DefaultGroupId(groups);
    var named := Renamed(groups, gid, args.name);
    var removed := RemoveStep(cs, named, refused, gid, args.removeCustomerIds, d, bound);
    var joined := AssignStep(removed.rows, named, refused, gid, args.customerIds, bound);
    var positioned := Repositioned(joined.rows, named, gid, args.customerPositions);
    var m1, m2, m3, m4 := RenameMessages(groups, gid, args.name), removed.messages, joined.messages, positioned.messages;
    assert |m1 + m2 + m3 + m4| == |m1| + |m2| + |m3| + |m4| == 0;
    RemoveStepMembership(cs, named, refused, gid, args.removeCustomerIds, d, bound);
    AssignStepMembership(removed.rows, named, refused, gid, args.customerIds, bound);
    RepositionedKeepsGroups(joined.rows, named, gid, args.customerPositions);
  }

  /**
   * After an update that records no message, the customer of the one
   * position entry holds that position when it belongs to the group.
   */
  lemma UpdateSetsPosition(cs: Customers, groups: Groups, refused: set<CustomerId>, gid: GroupId, args: Args, bound: nat)
    requires HasDefault(groups)
    requires PositionsAccepted(cs, gid, args.customerPositions) && |args.customerPositions| == 1
    requires Pipeline(cs, groups, refused, gid, args, bound).messages == []
    ensures var o := Pipeline(cs, groups, refused, gid, args, bound);
      var p := args.customerPositions[0];
      p.customerId in o.customers && o.customers[p.customerId].groupId == gid ==>
        o.customers[p.customerId].position == At(p.position)
  {
    var ps := args.customerPositions;
    var named := Renamed(groups, gid, args.name);
    var rows1 := RemoveStep(cs, named, refused, gid, args.removeCustomerIds, CustomerGroupModel.DefaultGroupId(groups), bound).rows;
    var rows2 := AssignStep(rows1, named, refused, gid, args.customerIds, bound).rows;
    assert ps[..0] == [];
    assert Repositioned(rows2, named, gid, ps) == PositionOne(rows2, named, gid, ps[0]);
  }

  /** After an update that records no message, a non-blank name is the group's new name. */
  lemma UpdateRenames(cs: Customers, groups: Groups, refused: set<CustomerId>, gid: GroupId, args: Args, bound: nat)
    requires HasDefault(groups) && gid in groups && !IsBlank(args.name)
    requires PositionsAccepted(cs, gid, args.customerPositions)
    requires Pipeline(cs, groups, refused, gid, args, bound).messages == []
    ensures var o := Pipeline(cs, groups, refused, gid, args, bound);
      o.groups == groups[gid := groups[gid].(name := args.name)]
  {
  }

  /**
   * An update keeps the store consistent: the same rows, a default group, and
   * a group for every customer, since customers only ever move into the
   * default group or into `gid`.
   */
  lemma UpdateKeepsLinked(cs: Customers, groups: Groups, refused: set<CustomerId>, gid: GroupId, args: Args, bound: nat)
    requires HasDefault(groups) && gid in groups && Linked(cs, groups)
    ensures var o := Pipeline(cs, groups, refused, gid, args, bound);
      && o.customers.Keys == cs.Keys && o.groups.Keys == groups.Keys
      && HasDefault(o.groups) && Linked(o.customers, o.groups)
  {
    if PositionsAccepted(cs, gid, args.customerPositions) {
      RenameKeepsDefault(groups, gid, args.name);
      var d := CustomerGroupModel.DefaultGroupId(groups);
      var named := Renamed(groups, gid, args.name);
      var removed := Removed(cs, gid, args.removeCustomerIds);
      var moved1 := Moved(cs, named, removed, d);
      var reset1 := (if removed == {} then {} else {gid}) * named.Keys;
      var rows1 := RemoveStep(cs, named, refused, gid, args.removeCustomerIds, d, bound).rows;
      var listed := Listed(rows1, args.customerIds);
      var moved2 := Moved(rows1, named, listed, gid);
      var reset2 := GroupsOf(rows1, listed) * named.Keys;
      var rows2 := AssignStep(rows1, named, refused, gid, args.customerIds, bound).rows;
      MovedKeepsLinked(cs, named, removed, d);
      ResetKeepsLinked(moved1, named, reset1, refused);
      MovedKeepsLinked(rows1, named, listed, gid);
      ResetKeepsLinked(moved2, named, reset2, refused);
      RepositionedKeepsGroups(rows2, named, gid, args.customerPositions);
    }
  }

  // ---------------------------------------------------------------------
  // The operation

  /** `update_customer_group_name`; returns the group as it is in memory afterwards. */
  method RenameGroup(store: Store, gid: GroupId, name: string, tracker: ErrorTracker) returns (g: CustomerGroup)
    requires gid in store.groups
    modifies store`groups, tracker
    ensures store.groups == Renamed(old(store.groups), gid, name)
    ensures tracker.errors == old(tracker.errors) + RenameMessages(old(store.groups), gid, name)
    ensures g == NamedGroup(old(store.groups)[gid], name)
  {
    g := store.groups[gid];
    if IsBlank(name) {
      return;
    }
    g := g.(name := name);
    var errs := UpdateGroup(store, gid, g);
    if errs != [] {
      tracker.AddErrors(Texts(errs));
    }
  }

  /** `remove_customers_from_groups`, with `d` the default group's id. */
  method RemoveCustomers(store: Store, gid: GroupId, ids: set<CustomerId>, d: GroupId, tracker: ErrorTracker)
    requires CustomerIdsBelow(store.customers, store.nextCustomerId)
    modifies store`customers, tracker
    ensures var s := RemoveStep(old(store.customers), store.groups, store.unwritable, gid, ids, d, store.nextCustomerId);
      store.customers == s.rows && tracker.errors == old(tracker.errors) + s.messages
  {
    var removed := set c | c in store.customers && store.customers[c].groupId == gid && c in ids;
    ghost var m := MoveMessages(store.customers, store.groups, Ascending(removed, store.nextCustomerId), d);
    MoveCustomers(store, removed, d, tracker);
    var reset := if removed == {} then {} else {gid};
    ghost var r := ResetMessages(store.customers, reset * store.groups.Keys, store.unwritable);
    var _ := ResetCustomerPosition.Call(store, reset, tracker);
    AppendAssoc(old(tracker.errors), m, r);
  }

  /** `assign_customers_to_group`. */
  method AssignCustomers(store: Store, gid: GroupId, ids: set<CustomerId>, tracker: ErrorTracker)
    requires CustomerIdsBelow(store.customers, store.nextCustomerId)
    modifies store`customers, tracker
    ensures var s := AssignStep(old(store.customers), store.groups, store.unwritable, gid, ids, store.nextCustomerId);
      store.customers == s.rows && tracker.errors == old(tracker.errors) + s.messages
  {
    var listed := set c | c in store.customers && c in ids;
    var previous := set c | c in store.customers && c in listed :: store.customers[c].groupId;
    ghost var m := MoveMessages(store.customers, store.groups, Ascending(listed, store.nextCustomerId), gid);
    MoveCustomers(store, listed, gid, tracker);
    ghost var r := ResetMessages(store.customers, previous * store.groups.Keys, store.unwritable);
    var _ := ResetCustomerPosition.Call(store, previous, tracker);
    AppendAssoc(old(tracker.errors), m, r);
  }

  /** One entry of `update_customer_positions`. */
  method UpdatePosition(store: Store, gid: GroupId, p: CustomerPosition, tracker: ErrorTracker)
    modifies store`customers, tracker
    ensures var s := PositionOne(old(store.customers), store.groups, gid, p);
      store.customers == s.rows && tracker.errors == old(tracker.errors) + s.messages
  {
    var c := p.customerId;
    if c in store.customers && store.customers[c].groupId == gid {
      var errs := UpdateCustomer(store, c, store.customers[c].(position := At(p.position)));
      if errs != [] {
        tracker.AddErrors(Texts(errs));
      }
    }
  }

  /** `update_customer_positions`: the entries in order. */
  method UpdatePositions(store: Store, gid: GroupId, ps: seq<CustomerPosition>, tracker: ErrorTracker)
    modifies store`customers, tracker
    ensures var s := Repositioned(old(store.customers), store.groups, gid, ps);
      store.customers == s.rows && tracker.errors == old(tracker.errors) + s.messages
  {
    ghost var cs0 := store.customers;
    for i := 0 to |ps|
      invariant store.customers == Repositioned(cs0, store.groups, gid, ps[..i]).rows
      invariant tracker.errors == old(tracker.errors) + Repositioned(cs0, store.groups, gid, ps[..i]).messages
    {
      ghost var before := Repositioned(cs0, store.groups, gid, ps[..i]);
      assert ps[..i + 1][..i] == ps[..i];
      UpdatePosition(store, gid, ps[i], tracker);
      AppendAssoc(old(tracker.errors), before.messages, PositionOne(before.rows, store.groups, gid, ps[i]).messages);
    }
    assert ps[..|ps|] == ps;
  }

  /** `update_customer_group_name` and `remove_customers_from_groups`; returns the group as it is in memory. */
  method RunFront(store: Store, gid: GroupId, args: Args, d: GroupId, tracker: ErrorTracker) returns (group: CustomerGroup)
    requires CustomerIdsBelow(store.customers, store.nextCustomerId) && gid in store.groups
    modifies store`customers, store`groups, tracker
    ensures var o := Front(old(store.customers), old(store.groups), store.unwritable, gid, args, d, store.nextCustomerId);
      store.customers == o.customers && store.groups == o.groups && tracker.errors == old(tracker.errors) + o.messages
    ensures group == NamedGroup(old(store.groups)[gid], args.name)
  {
    ghost var groups0, e0 := store.groups, tracker.errors;
    group := RenameGroup(store, gid, args.name, tracker);
    ghost var e1 := tracker.errors;
    RemoveCustomers(store, gid, args.removeCustomerIds, d, tracker);
    AppendAssoc(e0, RenameMessages(groups0, gid, args.name), tracker.errors[|e1|..]);
  }

  /** `assign_customers_to_group` and `update_customer_positions`. */
  method RunBack(store: Store, gid: GroupId, args: Args, tracker: ErrorTracker)
    requires CustomerIdsBelow(store.customers, store.nextCustomerId)
    modifies store`customers, tracker
    ensures var s := Back(old(store.customers), store.groups, store.unwritable, gid, args, store.nextCustomerId);
      store.customers == s.rows && tracker.errors == old(tracker.errors) + s.messages
  {
    ghost var cs0, e0 := store.customers, tracker.errors;
    ghost var joined := AssignStep(cs0, store.groups, store.unwritable, gid, args.customerIds, store.nextCustomerId);
    AssignCustomers(store, gid, args.customerIds, tracker);
    ghost var positioned := Repositioned(joined.rows, store.groups, gid, args.customerPositions);
    UpdatePositions(store, gid, args.customerPositions, tracker);
    AppendAssoc(e0, joined.messages, positioned.messages);
  }

  /** The steps after the position check, in order; returns the group as it is in memory. */
  method RunSteps(store: Store, gid: GroupId, args: Args, d: GroupId, tracker: ErrorTracker) returns (group: CustomerGroup)
    requires CustomerIdsBelow(store.customers, store.nextCustomerId) && gid in store.groups
    modifies store`customers, store`groups, tracker
    ensures var o := Steps(old(store.customers), old(store.groups), store.unwritable, gid, args, d, store.nextCustomerId);
      store.customers == o.customers && store.groups == o.groups && tracker.errors == old(tracker.errors) + o.messages
    ensures group == NamedGroup(old(store.groups)[gid], args.name)
  {
    ghost var e0 := tracker.errors;
    ghost var front := Front(store.customers, store.groups, store.unwritable, gid, args, d, store.nextCustomerId);
    group := RunFront(store, gid, args, d, tracker);
    ghost var back := Back(store.customers, store.groups, store.unwritable, gid, args, store.nextCustomerId);
    RunBack(store, gid, args, tracker);
    AppendAssoc(e0, front.messages, back.messages);
  }

  /** The body of the transaction, up to the final check. */
  method Attempt(store: Store, gid: GroupId, args: Args, tracker: ErrorTracker) returns (group: CustomerGroup)
    requires store.Valid() && gid in store.groups
    modifies store`customers, store`groups, tracker
    ensures var o := Pipeline(old(store.customers), old(store.groups), store.unwritable, gid, args, store.nextCustomerId);
      store.customers == o.customers && store.groups == o.groups && tracker.errors == old(tracker.errors) + o.messages
    ensures group == ResultGroup(old(store.customers), old(store.groups), gid, args)
  {
    if PositionsAccepted(store.customers, gid, args.customerPositions) {
      var d := CustomerGroupModel.DefaultGroupId(store.groups);
      group := RunSteps(store, gid, args, d, tracker);
    } else {
      group := store.groups[gid];
      tracker.AddErrors(Text(InvalidPositionProvided));
    }
  }

  /**
   * `CustomerGroups::Update.call`: the tracker ends with the messages of the
   * steps; the update commits exactly when the tracker holds none, including
   * messages added before the call, and otherwise rolls back.
   */
  method Call(store: Store, gid: GroupId, args: Args, tracker: ErrorTracker) returns (env: Envelope)
    requires store.Valid() && gid in store.groups
    modifies store`customers, store`groups, tracker
    ensures var o := Pipeline(old(store.customers), old(store.groups), store.unwritable, gid, args, store.nextCustomerId);
      && tracker.errors == old(tracker.errors) + o.messages
      && (env.success <==> tracker.errors == [])
      && (env.success ==> store.customers == o.customers && store.groups == o.groups)
      && (!env.success ==> store.customers == old(store.customers) && store.groups == old(store.groups))
    ensures env.errors == tracker.ErrorList()
    ensures env.result == GroupRecord(gid, ResultGroup(old(store.customers), old(store.groups), gid, args))
    ensures store.Valid()
  {
    var customers, groups := store.customers, store.groups;
    var group := Attempt(store, gid, args, tracker);
    UpdateKeepsLinked(customers, groups, store.unwritable, gid, args, store.nextCustomerId);
    var committed := Conclude(store, customers, groups, tracker);
    env := Envelope(committed, tracker.ErrorList(), GroupRecord(gid, group));
  }
}

=== FILE: customers_create.dfy ===
/**
 * `Customers::Create` (app/operations/customers/create.rb): fall back to the
 * default group when the requested one does not exist, then save the new
 * customer. There is no transaction: a refused save writes nothing.
 */
module CustomersCreate {
  import opened Records
  import opened ErrorTracking
  import opened Persistence
  import opened CustomerGroupModel
  import CustomerModel

  /**
   * The attributes of the new customer. `None` is an attribute left out or
   * `nil`; the new customer is never discarded.
   */
  datatype Params = Params(
    groupId: Option<GroupId>,
    name: string,
    mobileNo: string,
    isActive: Option<bool>,
    position: Option<int>)

  /** `valid_customer_group?`: the id is present and names a group. */
  predicate ValidGroup(groups: Groups, id: Option<GroupId>) {
    id.Some? && id.value in groups
  }

  /** `build_customer_params`: the requested group when it exists, otherwise the default group. */
  function GroupFor(groups: Groups, id: Option<GroupId>): (g: GroupId)
    requires HasDefault(groups)
    ensures g in groups
    ensures ValidGroup(groups, id) ==> g == id.value
    ensures !ValidGroup(groups, id) ==> groups[g].isDefault
  {
    if ValidGroup(groups, id) then id.value else DefaultGroupId(groups)
  }

  /**
   * `Customer.new(params)`: the columns not given stay NULL, so a missing
   * `is_active` reads as not active and a missing position as `Unset`.
   */
  function Build(groups: Groups, p: Params): (c: Customer)
    requires HasDefault(groups)
  {
    Customer(
      GroupFor(groups, p.groupId),
      if p.position.Some? then At(p.position.value) else Unset,
      false,
      p.isActive == Some(true),
      p.name,
      p.mobileNo)
  }

  /** The built customer belongs to an existing group, so `belongs_to` never refuses it. */
  lemma BuiltIsLinked(cs: Customers, groups: Groups, cid: CustomerId, p: Params)
    requires HasDefault(groups)
    ensures Build(groups, p).groupId in groups
    ensures CustomerModel.GroupMustExist !in CustomerModel.Errors(cs, groups, cid, Build(groups, p))
  {
    var c := Build(groups, p);
    assert c.groupId in groups;
  }

  /**
   * The customer keeps every given attribute: the name, the mobile number, the
   * group when it exists, the position when given; it is active only when
   * `is_active` is true.
   */
  lemma BuildKeepsAttributes(groups: Groups, p: Params)
    requires HasDefault(groups)
    ensures var c := Build(groups, p);
      && c.name == p.name && c.mobileNo == p.mobileNo && !c.discarded
      && (c.isActive <==> p.isActive == Some(true))
      && (c.position.At? <==> p.position.Some?)
      && (p.position.Some? ==> c.position.n == p.position.value)
      && (ValidGroup(groups, p.groupId) ==> c.groupId == p.groupId.value)
      && (!ValidGroup(groups, p.groupId) ==> groups[c.groupId].isDefault)
  {
  }

  /** Adding a customer under the next id, in an existing group, keeps the store consistent. */
  lemma InsertedConsistent(cs: Customers, groups: Groups, cid: CustomerId, row: Customer, nextG: nat)
    requires Consistent(cs, groups, cid, nextG)
    requires row.groupId in groups
    ensures cid !in cs
    ensures Consistent(cs[cid := row], groups, cid + 1, nextG)
  {
  }

  /**
   * `Customers::Create.call`: a customer the validations accept is stored under
   * the next id, and the call succeeds with no message whatever the tracker
   * held; a refused one stores nothing and returns the tracker's messages.
   */
  method Call(store: Store, p: Params, tracker: ErrorTracker) returns (env: Envelope)
    requires store.Valid()
    modifies store`customers, store`nextCustomerId, tracker
    ensures var cid, row := old(store.nextCustomerId), Build(store.groups, p);
      var errs := CustomerModel.Errors(old(store.customers), store.groups, cid, row);
      && (env.success <==> errs == [])
      && (env.success ==>
            && cid !in old(store.customers)
            && store.customers == old(store.customers)[cid := row]
            && tracker.errors == old(tracker.errors)
            && env == Envelope(true, [], CustomerRecord(cid, row)))
      && (!env.success ==>
            && store.customers == old(store.customers) && store.nextCustomerId == cid
            && tracker.errors == old(tracker.errors) + errs
            && env == Envelope(false, tracker.ErrorList(), Nil))
    ensures store.Valid()
  {
    ghost var customers, nextG := store.customers, store.nextGroupId;
    var row := Build(store.groups, p);
    var cid, errs := InsertCustomer(store, row);
    if errs != [] {
      tracker.AddErrors(Texts(errs));
      env := Envelope(false, tracker.ErrorList(), Nil);
      return;
    }
    InsertedConsistent(customers, store.groups, cid, row, nextG);
    env := Envelope(true, [], CustomerRecord(cid, row));
  }
}

=== FILE: customers_delete.dfy ===
/**
 * `Customers::Delete` (app/operations/customers/delete.rb). In one
 * transaction: point the customer in memory at the default group, destroy
 * it, and fail when the destroy reports messages or the tracker already
 * holds some, rolling back.
 */
module CustomersDelete {
  import opened Records
  import opened ErrorTracking
  import opened Persistence
  import opened CustomerGroupModel

  /**
   * `customer.destroy`: the row goes unless the database refuses, in which
   * case `refusal` holds the messages left on the record. The `Customer`
   * model declares no destroy callback, so the refusal is a parameter.
   */
  method DestroyCustomer(store: Store, c: CustomerId, refusal: seq<string>) returns (errs: seq<string>)
    requires c in store.customers
    modifies store`customers
    ensures errs == refusal
    ensures store.customers == if errs == [] then old(store.customers) - {c} else old(store.customers)
  {
    errs := refusal;
    if errs == [] {
      store.customers := store.customers - {c};
    }
  }

  /** The customer as returned: in memory, pointing at the default group. */
  function Returned(groups: Groups, row: Customer): (r: Customer)
    requires HasDefault(groups)
    ensures r.groupId in groups && groups[r.groupId].isDefault
  {
    row.(groupId := DefaultGroupId(groups))
  }

  /** Removing a customer keeps the store consistent: no row refers to it. */
  lemma RemovedConsistent(cs: Customers, groups: Groups, c: CustomerId, nextC: nat, nextG: nat)
    requires Consistent(cs, groups, nextC, nextG)
    ensures Consistent(cs - {c}, groups, nextC, nextG)
    ensures (cs - {c}).Keys == cs.Keys - {c}
    ensures forall d :: d in cs && d != c ==> (cs - {c})[d] == cs[d]
  {
  }

  /** The body of the transaction, up to the final check. */
  method Attempt(store: Store, c: CustomerId, refusal: seq<string>, tracker: ErrorTracker) returns (customer: Customer)
    requires store.Valid() && c in store.customers
    modifies store`customers, tracker
    ensures customer == Returned(store.groups, old(store.customers)[c])
    ensures tracker.errors == old(tracker.errors) + refusal
    ensures store.customers == if refusal == [] then old(store.customers) - {c} else old(store.customers)
    ensures store.Valid()
  {
    customer := Returned(store.groups, store.customers[c]);
    ghost var customers := store.customers;
    var errs := DestroyCustomer(store, c, refusal);
    tracker.AddErrors(Texts(errs));
    RemovedConsistent(customers, store.groups, c, store.nextCustomerId, store.nextGroupId);
  }

  /**
   * `Customers::Delete.call`: the customer is gone exactly when the destroy
   * succeeds and the tracker held no message beforehand; then the call
   * returns it pointing at the default group with no message. Otherwise the
   * destroy's messages are added, nothing changes, and the result is `nil`.
   */
  method Call(store: Store, c: CustomerId, refusal: seq<string>, tracker: ErrorTracker) returns (env: Envelope)
    requires store.Valid() && c in store.customers
    modifies store`customers, store`groups, tracker
    ensures store.groups == old(store.groups)
    ensures tracker.errors == old(tracker.errors) + refusal
    ensures env.success <==> old(tracker.errors) == [] && refusal == []
    ensures env.success ==>
      && store.customers == old(store.customers) - {c}
      && env == Envelope(true, [], CustomerRecord(c, Returned(store.groups, old(store.customers)[c])))
    ensures !env.success ==>
      && store.customers == old(store.customers)
      && env == Envelope(false, tracker.ErrorList(), Nil)
    ensures store.Valid()
  {
    var customers, groups := store.customers, store.groups;
    assert Consistent(customers, groups, store.nextCustomerId, store.nextGroupId);
    var customer := Attempt(store, c, refusal, tracker);
    var committed := Conclude(store, customers, groups, tracker);
    env := if committed then Envelope(true, tracker.ErrorList(), CustomerRecord(c, customer))
           else Envelope(false, tracker.ErrorList(), Nil);
  }
}

=== FILE: customers_update.dfy ===
/**
 * `Customers::Update` (app/operations/customers/update.rb): drop the `nil`
 * attributes, settle the group id, save the customer and, when it left its
 * group, reset the group it left.
 */
module CustomersUpdate {
  import opened Records
  import opened ErrorTracking
  import opened Persistence
  import opened ResetCustomerPosition
  import opened CustomerGroupModel
  import CustomerModel
  import opened Text

  /** The attributes to change; `None` is an attribute given as `nil` or not given. */
  datatype Params = Params(
    groupId: Option<GroupId>,
    name: Option<string>,
    mobileNo: Option<string>,
    isActive: Option<bool>,
    position: Option<int>)

  /** `valid_customer_group?`: the id is present and names a group. */
  predicate ValidGroup(groups: Groups, id: Option<GroupId>) {
    id.Some? && id.value in groups
  }

  /**
   * `build_customer_params` on the group id: a valid id is kept; otherwise a
   * customer whose group is gone gets the default group, and any other
   * customer drops the key.
   */
  function GroupFor(groups: Groups, current: Customer, id: Option<GroupId>): (g: Option<GroupId>)
    requires HasDefault(groups)
    ensures g.Some? ==> g.value in groups
  {
    if ValidGroup(groups, id) then id
    else if current.groupId !in groups then Some(DefaultGroupId(groups))
    else None
  }

  /** `customer_params.reject { nil }` followed by `assign_attributes`: a given attribute replaces the column. */
  function Assign<T>(column: T, given: Option<T>): T {
    if given.Some? then given.value else column
  }

  /** The customer in memory after `assign_attributes`. */
  function Updated(groups: Groups, current: Customer, p: Params): (c: Customer)
    requires HasDefault(groups)
  {
    current.(
      groupId := Assign(current.groupId, GroupFor(groups, current, p.groupId)),
      name := Assign(current.name, p.name),
      mobileNo := Assign(current.mobileNo, p.mobileNo),
      isActive := Assign(current.isActive, p.isActive),
      position := if p.position.Some? then At(p.position.value) else current.position)
  }

  /**
   * Attributes given as `nil` change nothing, and given ones replace the
   * column; the discarded flag is never touched.
   */
  lemma NilAttributesIgnored(groups: Groups, current: Customer, p: Params)
    requires HasDefault(groups)
    ensures var c := Updated(groups, current, p);
      && c.discarded == current.discarded
      && c.name == (if p.name.Some? then p.name.value else current.name)
      && c.mobileNo == (if p.mobileNo.Some? then p.mobileNo.value else current.mobileNo)
      && c.isActive == (if p.isActive.Some? then p.isActive.value else current.isActive)
      && c.position == (if p.position.Some? then At(p.position.value) else current.position)
  {
  }

  /**
   * The group the customer ends up in: the requested one when it exists; the
   * default group when it does not and the customer's own group is gone; the
   * customer's own group otherwise.
   */
  lemma GroupFallback(groups: Groups, current: Customer, p: Params)
    requires HasDefault(groups)
    ensures var g := Updated(groups, current, p).groupId;
      && g in groups
      && (ValidGroup(groups, p.groupId) ==> g == p.groupId.value)
      && (!ValidGroup(groups, p.groupId) && current.groupId !in groups ==> groups[g].isDefault)
      && (!ValidGroup(groups, p.groupId) && current.groupId in groups ==> g == current.groupId)
  {
  }

  /**
   * `reset_customer_group_position` on the rows `written` after the save:
   * when customer `c` is no longer in the group `left`, that group is reset
   * (`ResetCustomerPosition.call([customer_group_id])`); otherwise nothing
   * happens.
   */
  function ResetLeft(written: Customers, groups: Groups, refused: set<CustomerId>, c: CustomerId, left: GroupId): (s: Step)
    requires c in written
    ensures s.rows.Keys == written.Keys
  {
    if written[c].groupId == left then Step(written, [])
    else Step(ResetGroups(written, {left} * groups.Keys, refused), ResetMessages(written, {left} * groups.Keys, refused))
  }

  /** A save of `row` over customer `c`, then the reset of the group it left. */
  function Saved(cs: Customers, groups: Groups, refused: set<CustomerId>, c: CustomerId, row: Customer): (s: Step)
    requires c in cs
    ensures s.rows.Keys == cs.Keys
  {
    ResetLeft(cs[c := row], groups, refused, c, cs[c].groupId)
  }

  /**
   * A save that moves the customer renumbers the group it left: its kept
   * customers whose position writes apply hold the positions 1..N again, in
   * their former `(position, id)` order, and the customer is in its new group
   * with the assigned attributes and position.
   */
  lemma SavedRenumbersGroupLeft(cs: Customers, groups: Groups, refused: set<CustomerId>, c: CustomerId, row: Customer)
    requires c in cs && row.groupId != cs[c].groupId && cs[c].groupId in groups
    requires forall d :: d in Members(cs[c := row], cs[c].groupId, Kept) ==> d !in refused
    ensures var written, r := cs[c := row], Saved(cs, groups, refused, c, row).rows;
      var s := Members(written, cs[c].groupId, Kept);
      && c !in s && r[c] == row
      && (forall a, b :: a in s && b in s && Before(written, a, b) ==> r[a].position.At? && r[a].position.n < r[b].position.n)
      && (forall p :: p in Positions(r, s) <==> p.At? && 1 <= p.n <= |s|)
  {
    var left, written := cs[c].groupId, cs[c := row];
    ResetNumbersPartitionInOrder(written, {left} * groups.Keys, refused, left, Kept);
    ResetKeepsMembership(written, {left} * groups.Keys, refused);
  }

  const Retail := CustomerGroup("Retail", true)
  const Wholesale := CustomerGroup("Wholesale", false)
  const Mohan := Customer(0, At(1), false, true, "Mohan", "1251231231")
  const Ramesh := Customer(1, At(1), false, true, "Ramesh", "0001112220")

  /**
   * Only the group left is renumbered, never the group joined: moving Ramesh,
   * first in group 1, into group 0, where Mohan is first, is a save the
   * validations accept, and afterwards both kept customers of group 0 hold
   * position 1.
   */
  lemma JoinedGroupMayRepeatPositions()
    ensures var cs, groups := map[1 := Mohan, 2 := Ramesh], map[0 := Retail, 1 := Wholesale];
      var row := Ramesh.(groupId := 0);
      var r := Saved(cs, groups, {}, 2, row).rows;
      && CustomerModel.Errors(cs, groups, 2, row) == []
      && r[1].groupId == 0 && r[2].groupId == 0 && !r[1].discarded && !r[2].discarded
      && r[1].position == At(1) && r[2].position == At(1)
  {
    var cs, groups := map[1 := Mohan, 2 := Ramesh], map[0 := Retail, 1 := Wholesale];
    var row := Ramesh.(groupId := 0);
    assert Lower(Mohan.name) != Lower(row.name) by {
      assert |Lower(Mohan.name)| != |Lower(row.name)|;
    }
    assert Lower(Mohan.mobileNo) != Lower(row.mobileNo) by {
      assert Lower(Mohan.mobileNo)[0] != Lower(row.mobileNo)[0];
    }
    assert !CustomerModel.NameTaken(cs, 2, row.name);
    assert !CustomerModel.MobileTaken(cs, 2, row.mobileNo);
    assert !IsBlank(row.name) by { assert !IsSpace(row.name[0]); }
    assert !IsBlank(row.mobileNo) by { assert !IsSpace(row.mobileNo[0]); }
    var written := cs[2 := row];
    ResetKeepsMembership(written, {1} * groups.Keys, {});
  }

  /** A save the validations accept keeps the store consistent, whether or not a reset follows. */
  lemma SavedConsistent(cs: Customers, groups: Groups, refused: set<CustomerId>, c: CustomerId, row: Customer,
                        nextC: nat, nextG: nat)
    requires Consistent(cs, groups, nextC, nextG) && c in cs
    requires CustomerModel.Errors(cs, groups, c, row) == []
    ensures Consistent(Saved(cs, groups, refused, c, row).rows, groups, nextC, nextG)
  {
    var written := cs[c := row];
    assert Linked(written, groups);
    if row.groupId != cs[c].groupId {
      ResetKeepsLinked(written, groups, {cs[c].groupId} * groups.Keys, refused);
      ResetKeepsMembership(written, {cs[c].groupId} * groups.Keys, refused);
    }
  }

  /**
   * `reset_customer_group_position`: nothing when the group did not change,
   * otherwise `ResetCustomerPosition.call` on the group left. Its result is
   * ignored.
   */
  method ResetCustomerGroupPosition(store: Store, c: CustomerId, left: GroupId, tracker: ErrorTracker)
    requires c in store.customers
    modifies store`customers, tracker
    ensures var s := ResetLeft(old(store.customers), store.groups, store.unwritable, c, left);
      store.customers == s.rows && tracker.errors == old(tracker.errors) + s.messages
  {
    if store.customers[c].groupId == left {
      return;
    }
    var _ := ResetCustomerPosition.Call(store, {left}, tracker);
  }

  /**
   * `Customers::Update.call`: the customer in memory takes the assigned
   * attributes. A save the validations accept is kept, the group left is
   * reset, and the call succeeds with no message even when the reset records
   * some; a refused save writes nothing and returns the tracker's messages.
   * Either way the result is the customer as assigned.
   */
  method Call(store: Store, c: CustomerId, p: Params, tracker: ErrorTracker) returns (env: Envelope)
    requires store.Valid() && c in store.customers
    modifies store`customers, tracker
    ensures var row := Updated(store.groups, old(store.customers)[c], p);
      var errs := CustomerModel.Errors(old(store.customers), store.groups, c, row);
      var s := Saved(old(store.customers), store.groups, store.unwritable, c, row);
      && (env.success <==> errs == [])
      && (env.success ==>
            && store.customers == s.rows
            && tracker.errors == old(tracker.errors) + s.messages
            && env == Envelope(true, [], CustomerRecord(c, row)))
      && (!env.success ==>
            && store.customers == old(store.customers)
            && tracker.errors == old(tracker.errors) + errs
            && env == Envelope(false, tracker.ErrorList(), CustomerRecord(c, row)))
    ensures store.Valid()
  {
    ghost var customers := store.customers;
    var left := store.customers[c].groupId;
    var row := Updated(store.groups, store.customers[c], p);
    var errs := UpdateCustomer(store, c, row);
    if errs != [] {
      tracker.AddErrors(Texts(errs));
      env := Envelope(false, tracker.ErrorList(), CustomerRecord(c, row));
      return;
    }
    ResetCustomerGroupPosition(store, c, left, tracker);
    SavedConsistent(customers, store.groups, store.unwritable, c, row, store.nextCustomerId, store.nextGroupId);
    env := Envelope(true, [], CustomerRecord(c, row));
  }
}

=== FILE: error_tracker.dfy ===
/** `ErrorTracker` (app/operations/error_tracker.rb): the message accumulator every operation threads through its steps. */
module ErrorTracking {
  import opened Sequences

  /** What `add_errors` accepts: one message, or a list of messages nested to any depth. */
  datatype Messages = Text(text: string) | Batch(items: seq<Messages>)

  /** `[errors].flatten`: the messages of `m`, left to right. */
  function Flatten(m: Messages): seq<string>
    decreases m, 1
  {
    match m
    case Text(t) => [t]
    case Batch(items) => FlattenAll(items)
  }

  function FlattenAll(ms: seq<Messages>): seq<string>
    decreases ms, 0
  {
    if ms == [] then [] else Flatten(ms[0]) + FlattenAll(ms[1..])
  }

  /** Flattening a concatenated list flattens each part in order. */
  lemma {:induction false} FlattenAllAppend(a: seq<Messages>, b: seq<Messages>)
    ensures FlattenAll(a + b) == FlattenAll(a) + FlattenAll(b)
    decreases |a|
  {
    if a != [] {
      assert (a + b)[0] == a[0] && (a + b)[1..] == a[1..] + b;
      FlattenAllAppend(a[1..], b);
      calc {
        FlattenAll(a + b);
        Flatten(a[0]) + FlattenAll(a[1..] + b);
        Flatten(a[0]) + (FlattenAll(a[1..]) + FlattenAll(b));
        FlattenAll(a) + FlattenAll(b);
      }
    } else {
      assert a + b == b;
    }
  }

  /** A list of plain messages, as `errors.full_messages` hands it over. */
  function Texts(s: seq<string>): (m: Messages)
    ensures Flatten(m) == s
  {
    Batch(TextList(s))
  }

  function TextList(s: seq<string>): (ms: seq<Messages>)
    ensures FlattenAll(ms) == s
  {
    if s == [] then [] else [Text(s[0])] + TextList(s[1..])
  }

  class ErrorTracker {
    const name: string
    var errors: seq<string>

    constructor (name: string)
      ensures this.name == name && errors == []
      ensures !HasError() && ErrorList() == []
    {
      this.name := name;
      errors := [];
    }

    /** `has_error?`: at least one message was added. */
    predicate HasError()
      reads this
      ensures HasError() <==> ErrorList() != []
    {
      errors != []
    }

    /** `add_errors`: appends every message of `m`, flattened and in order. */
    method AddErrors(m: Messages)
      modifies this
      ensures errors == old(errors) + Flatten(m)
    {
      errors := errors + Flatten(m);
    }

    /** `error_list`: each message added so far, once, in first-occurrence order. */
    function ErrorList(): (r: seq<string>)
      reads this
      ensures NoDuplicates(r)
      ensures forall i :: 0 <= i < |r| ==> r[i] in errors
      ensures forall i :: 0 <= i < |errors| ==> errors[i] in r
    {
      Dedup(errors)
    }
  }
}

=== FILE: persistence.dfy ===
/**
 * The record-level writes the operations are built from, with Active
 * Record's meaning: `update` and `save` run the model validations and write
 * only when they pass, and report the full messages when they do not;
 * `destroy` runs the `before_destroy` guard; `find_each` walks a relation
 * in ascending id order.
 */
module Persistence {
  import opened Sequences
  import opened Records
  import opened ErrorTracking
  import CustomerModel
  import CustomerGroupModel

  /** What one step of an operation leaves behind: the rows, and the messages it added to the tracker. */
  datatype Step = Step(rows: Customers, messages: seq<string>)

  /** The messages of `customer.update(customer_group_id: target)` on customer `c`. */
  function MoveErrors(cs: Customers, groups: Groups, c: CustomerId, target: GroupId): seq<string> {
    if c in cs then CustomerModel.Errors(cs, groups, c, cs[c].(groupId := target)) else []
  }

  /** The customers of `moved` whose move to `target` the validations refuse. */
  function MoveFailures(cs: Customers, groups: Groups, moved: set<CustomerId>, target: GroupId): set<CustomerId> {
    set c | c in moved && MoveErrors(cs, groups, c, target) != []
  }

  /** The rows after every customer of `moved` whose validations pass has moved to `target`. */
  function Moved(cs: Customers, groups: Groups, moved: set<CustomerId>, target: GroupId): (r: Customers)
    ensures r.Keys == cs.Keys
  {
    Reassigned(cs, moved - MoveFailures(cs, groups, moved, target), target)
  }

  /** The messages of each customer of `ids`, in order. */
  function MoveBatches(cs: Customers, groups: Groups, ids: seq<CustomerId>, target: GroupId): (r: seq<seq<string>>)
    ensures |r| == |ids|
  {
    seq(|ids|, i requires 0 <= i < |ids| => MoveErrors(cs, groups, ids[i], target))
  }

  /** When no customer is refused, every customer of `moved` is in `target` afterwards. */
  lemma MovedWithoutFailures(cs: Customers, groups: Groups, moved: set<CustomerId>, target: GroupId)
    requires MoveFailures(cs, groups, moved, target) == {}
    ensures Moved(cs, groups, moved, target) == Reassigned(cs, moved, target)
  {
    assert moved - MoveFailures(cs, groups, moved, target) == moved;
  }

  /** Moving customers into an existing group keeps the foreign key. */
  lemma MovedKeepsLinked(cs: Customers, groups: Groups, moved: set<CustomerId>, target: GroupId)
    requires Linked(cs, groups) && target in groups
    ensures Linked(Moved(cs, groups, moved, target), groups)
  {
  }

  /** The messages a `find_each { update; add_errors }` loop collects, walking `ids` in order. */
  function MoveMessages(cs: Customers, groups: Groups, ids: seq<CustomerId>, target: GroupId): seq<string> {
    Concat(MoveBatches(cs, groups, ids, target))
  }

  /** Walking one customer more appends its messages. */
  lemma MoveMessagesSnoc(cs: Customers, groups: Groups, ids: seq<CustomerId>, i: nat, target: GroupId)
    requires i < |ids|
    ensures MoveMessages(cs, groups, ids[..i + 1], target)
         == MoveMessages(cs, groups, ids[..i], target) + MoveErrors(cs, groups, ids[i], target)
  {
    var b := MoveBatches(cs, groups, ids[..i], target);
    assert MoveBatches(cs, groups, ids[..i + 1], target) == b + [MoveErrors(cs, groups, ids[i], target)];
    ConcatSnoc(b, MoveErrors(cs, groups, ids[i], target));
  }

  /** `find_each` collects no message exactly when no customer of `moved` is refused. */
  lemma MoveMessagesEmptyIff(cs: Customers, groups: Groups, moved: set<CustomerId>, target: GroupId, bound: nat)
    requires forall c :: c in moved ==> c < bound
    ensures MoveMessages(cs, groups, Ascending(moved, bound), target) == [] <==> MoveFailures(cs, groups, moved, target) == {}
  {
    var ids := Ascending(moved, bound);
    var b := MoveBatches(cs, groups, ids, target);
    ConcatEmptyIff(b);
    if MoveFailures(cs, groups, moved, target) != {} {
      var c :| c in MoveFailures(cs, groups, moved, target);
      assert c in ids;
      var i :| 0 <= i < |ids| && ids[i] == c;
      assert b[i] != [];
    } else {
      forall i | 0 <= i < |b| ensures b[i] == [] {
        var c := ids[i];
        assert c in moved && c !in MoveFailures(cs, groups, moved, target);
        assert b[i] == MoveErrors(cs, groups, c, target);
      }
    }
  }

  /** The failures among one customer more. */
  lemma MoveFailuresGrow(cs: Customers, groups: Groups, moved: set<CustomerId>, c: CustomerId, target: GroupId)
    ensures MoveFailures(cs, groups, moved + {c}, target)
         == MoveFailures(cs, groups, moved, target) + (if MoveErrors(cs, groups, c, target) != [] then {c} else {})
  {
  }

  /**
   * One step of the loop: the customer it reaches has not moved yet, its
   * validations see what they saw before the loop, and the rows afterwards
   * are those of having walked one customer more.
   */
  lemma {:induction false} MoveStep(cs0: Customers, groups: Groups, done: set<CustomerId>, c: CustomerId, target: GroupId, rows: Customers)
    requires c in cs0 && c !in done
    requires rows == Moved(cs0, groups, done, target)
    ensures c in rows && rows[c] == cs0[c]
    ensures CustomerModel.Errors(rows, groups, c, rows[c].(groupId := target)) == MoveErrors(cs0, groups, c, target)
    ensures (if MoveErrors(cs0, groups, c, target) == [] then rows[c := rows[c].(groupId := target)] else rows)
         == Moved(cs0, groups, done + {c}, target)
  {
    var f := MoveFailures(cs0, groups, done, target);
    assert rows[c] == cs0[c];
    CustomerModel.ErrorsIgnoreOtherRowsGroups(cs0, rows, groups, c, cs0[c].(groupId := target));
    MoveFailuresGrow(cs0, groups, done, c, target);
    if MoveErrors(cs0, groups, c, target) == [] {
      ReassignedGrow(cs0, done - f, c, target);
      assert (done - f) + {c} == (done + {c}) - f;
    } else {
      assert (done + {c}) - (f + {c}) == done - f;
    }
  }

  /**
   * `customer.update(params)`: the validations run against the table as it
   * is, and the row is written only when they pass.
   */
  method UpdateCustomer(store: Store, c: CustomerId, row: Customer) returns (errs: seq<string>)
    requires c in store.customers
    modifies store`customers
    ensures errs == CustomerModel.Errors(old(store.customers), store.groups, c, row)
    ensures store.customers == if errs == [] then old(store.customers)[c := row] else old(store.customers)
  {
    errs := CustomerModel.Errors(store.customers, store.groups, c, row);
    if errs == [] {
      store.customers := store.customers[c := row];
    }
  }

  /**
   * `customers.find_each { |c| c.update(customer_group_id: target); add_errors }`:
   * each customer of `moved`, in ascending id order, moves unless its
   * validations refuse, and its messages are recorded.
   */
  method MoveCustomers(store: Store, moved: set<CustomerId>, target: GroupId, tracker: ErrorTracker)
    requires forall c :: c in moved ==> c in store.customers && c < store.nextCustomerId
    modifies store`customers, tracker
    ensures store.customers == Moved(old(store.customers), store.groups, moved, target)
    ensures tracker.errors == old(tracker.errors)
      + MoveMessages(old(store.customers), store.groups, Ascending(moved, store.nextCustomerId), target)
  {
    var cs0 := store.customers;
    var ids := Ascending(moved, store.nextCustomerId);
    var i := 0;
    ghost var done: set<CustomerId> := {};
    assert Moved(cs0, store.groups, done, target) == cs0;
    while i < |ids|
      invariant 0 <= i <= |ids|
      invariant forall c :: c in done <==> c in ids[..i]
      invariant store.customers == Moved(cs0, store.groups, done, target)
      invariant tracker.errors == old(tracker.errors) + MoveMessages(cs0, store.groups, ids[..i], target)
    {
      MoveNext(store, cs0, ids, i, done, target, tracker, old(tracker.errors));
      done := done + {ids[i]};
      i := i + 1;
    }
    assert ids[..i] == ids;
    assert done == moved;
  }

  /**
   * The body of the `find_each` loop on `ids[i]`, the customers `done`
   * before it having been walked.
   */
  method MoveNext(store: Store, ghost cs0: Customers, ids: seq<CustomerId>, i: nat, ghost done: set<CustomerId>,
                  target: GroupId, tracker: ErrorTracker, ghost prefix: seq<string>)
    requires i < |ids| && ids[i] in cs0
    requires forall j, k :: 0 <= j < k < |ids| ==> ids[j] < ids[k]
    requires forall c :: c in done <==> c in ids[..i]
    requires store.customers == Moved(cs0, store.groups, done, target)
    requires tracker.errors == prefix + MoveMessages(cs0, store.groups, ids[..i], target)
    modifies store`customers, tracker
    ensures forall c :: c in done + {ids[i]} <==> c in ids[..i + 1]
    ensures store.customers == Moved(cs0, store.groups, done + {ids[i]}, target)
    ensures tracker.errors == prefix + MoveMessages(cs0, store.groups, ids[..i + 1], target)
  {
    WalkStep(ids, i, done);
    MoveMessagesSnoc(cs0, store.groups, ids, i, target);
    MoveOne(store, cs0, done, ids[i], target, tracker);
    AppendAssoc(prefix, MoveMessages(cs0, store.groups, ids[..i], target), MoveErrors(cs0, store.groups, ids[i], target));
  }

  /** The next id of an ascending walk has not been walked yet, and is walked after this step. */
  lemma WalkStep(ids: seq<CustomerId>, i: nat, done: set<CustomerId>)
    requires i < |ids|
    requires forall j, k :: 0 <= j < k < |ids| ==> ids[j] < ids[k]
    requires forall c :: c in done <==> c in ids[..i]
    ensures ids[i] !in done
    ensures forall c :: c in done + {ids[i]} <==> c in ids[..i + 1]
  {
    assert ids[..i + 1] == ids[..i] + [ids[i]];
    forall k | 0 <= k < i ensures ids[k] != ids[i] {
    }
  }

  /** One `update(customer_group_id: target)` of the loop, on a customer `c` not walked yet. */
  method MoveOne(store: Store, ghost cs0: Customers, ghost done: set<CustomerId>, c: CustomerId, target: GroupId, tracker: ErrorTracker)
    requires c in cs0 && c !in done
    requires store.customers == Moved(cs0, store.groups, done, target)
    modifies store`customers, tracker
    ensures store.customers == Moved(cs0, store.groups, done + {c}, target)
    ensures tracker.errors == old(tracker.errors) + MoveErrors(cs0, store.groups, c, target)
  {
    MoveStep(cs0, store.groups, done, c, target, store.customers);
    var errs := UpdateCustomer(store, c, store.customers[c].(groupId := target));
    if errs != [] {
      tracker.AddErrors(Texts(errs));
    }
  }

  /**
   * One `update(customer_group_id: target)` of a loop that stops at the first
   * refusal, on a customer `c` not walked yet: it returns the messages, and
   * writes only when there are none.
   */
  method MoveChecked(store: Store, ghost cs0: Customers, ghost done: set<CustomerId>, c: CustomerId, target: GroupId)
    returns (errs: seq<string>)
    requires c in cs0 && c !in done
    requires store.customers == Moved(cs0, store.groups, done, target)
    modifies store`customers
    ensures errs == MoveErrors(cs0, store.groups, c, target)
    ensures errs == [] ==> store.customers == Moved(cs0, store.groups, done + {c}, target)
    ensures errs != [] ==> store.customers == old(store.customers)
  {
    MoveStep(cs0, store.groups, done, c, target, store.customers);
    errs := UpdateCustomer(store, c, store.customers[c].(groupId := target));
  }

  /** `customer_group.update(name:)` on a stored group. */
  method UpdateGroup(store: Store, gid: GroupId, g: CustomerGroup) returns (errs: seq<string>)
    requires gid in store.groups
    modifies store`groups
    ensures errs == CustomerGroupModel.Errors(old(store.groups), gid, g)
    ensures store.groups == if errs == [] then old(store.groups)[gid := g] else old(store.groups)
  {
    errs := CustomerGroupModel.Errors(store.groups, gid, g);
    if errs == [] {
      store.groups := store.groups[gid := g];
    }
  }

  /** `customer_group.save` on a new record: it takes the next id of the sequence when it is inserted. */
  method InsertGroup(store: Store, g: CustomerGroup) returns (gid: GroupId, errs: seq<string>)
    modifies store`groups, store`nextGroupId
    ensures gid == old(store.nextGroupId)
    ensures errs == CustomerGroupModel.Errors(old(store.groups), gid, g)
    ensures errs == [] ==> store.groups == old(store.groups)[gid := g] && store.nextGroupId == gid + 1
    ensures errs != [] ==> store.groups == old(store.groups) && store.nextGroupId == gid
  {
    gid := store.nextGroupId;
    errs := CustomerGroupModel.Errors(store.groups, gid, g);
    if errs == [] {
      store.groups := store.groups[gid := g];
      store.nextGroupId := gid + 1;
    }
  }

  /** `customer.save` on a new record: it takes the next id of the sequence when it is inserted. */
  method InsertCustomer(store: Store, row: Customer) returns (cid: CustomerId, errs: seq<string>)
    modifies store`customers, store`nextCustomerId
    ensures cid == old(store.nextCustomerId)
    ensures errs == CustomerModel.Errors(old(store.customers), store.groups, cid, row)
    ensures errs == [] ==> store.customers == old(store.customers)[cid := row] && store.nextCustomerId == cid + 1
    ensures errs != [] ==> store.customers == old(store.customers) && store.nextCustomerId == cid
  {
    cid := store.nextCustomerId;
    errs := CustomerModel.Errors(store.customers, store.groups, cid, row);
    if errs == [] {
      store.customers := store.customers[cid := row];
      store.nextCustomerId := cid + 1;
    }
  }

  /** `customer_group.destroy`: the `before_destroy` guard decides; the messages stay on the record. */
  method DestroyGroup(store: Store, gid: GroupId) returns (errs: seq<string>)
    requires gid in store.groups
    modifies store`groups
    ensures (store.groups, errs) == CustomerGroupModel.Destroy(old(store.groups), gid)
    ensures errs == [] <==> !old(store.groups)[gid].isDefault
    ensures errs == [] ==> store.groups == old(store.groups) - {gid}
  {
    var r := CustomerGroupModel.Destroy(store.groups, gid);
    store.groups := r.0;
    errs := r.1;
  }

  /**
   * The end of an `ActiveRecord::Base.transaction` block whose body raises as
   * soon as the tracker holds a message: the writes stay when the tracker is
   * empty, otherwise the rows are restored from the snapshot taken at the
   * start. Id sequences are not part of the snapshot. Only what commits
   * needs to be consistent.
   */
  method Conclude(store: Store, customers: Customers, groups: Groups, tracker: ErrorTracker) returns (committed: bool)
    requires tracker.errors == [] ==> store.Valid()
    requires Consistent(customers, groups, store.nextCustomerId, store.nextGroupId)
    modifies store`customers, store`groups
    ensures committed <==> tracker.errors == []
    ensures committed ==> store.customers == old(store.customers) && store.groups == old(store.groups)
    ensures !committed ==> store.customers == customers && store.groups == groups
    ensures store.Valid()
  {
    committed := !tracker.HasError();
    if !committed {
      store.customers, store.groups := customers, groups;
    }
  }
}

=== FILE: records.dfy ===
/**
 * The two tables of the record store (`customers` and `customer_groups`), the
 * store itself, and the `{success:, errors:, result:}` envelope every
 * operation returns.
 */
module Records {

  /** A value that may be absent: a `nil` attribute or a missing key. */
  datatype Option<T> = None | Some(value: T)

  type CustomerId = nat
  type GroupId = nat

  /** The nullable `position` column: `Unset` is NULL, which a new customer holds until a reset numbers it. */
  datatype Position = Unset | At(n: int)

  /**
   * A row of `customers`. `discarded` stands for a set `discarded_at`;
   * e-mail, address and due amount take no part in the engine and are left out.
   */
  datatype Customer = Customer(
    groupId: GroupId,
    position: Position,
    discarded: bool,
    isActive: bool,
    name: string,
    mobileNo: string)

  /** A row of `customer_groups`. */
  datatype CustomerGroup = CustomerGroup(name: string, isDefault: bool)

  type Customers = map<CustomerId, Customer>
  type Groups = map<GroupId, CustomerGroup>

  /** The `result:` of an envelope: `nil`, `[]`, or the record the operation worked on. */
  datatype Payload =
    | Nil
    | EmptyList
    | GroupRecord(gid: GroupId, group: CustomerGroup)
    | CustomerRecord(cid: CustomerId, customer: Customer)

  datatype Envelope = Envelope(success: bool, errors: seq<string>, result: Payload)

  /** Some group carries `is_default`, so `CustomerGroup.default.first` is not nil. */
  predicate HasDefault(groups: Groups) {
    exists g :: g in groups && groups[g].isDefault
  }

  /** The foreign key `customers.customer_group_id`: every customer's group exists. */
  predicate Linked(cs: Customers, groups: Groups) {
    forall c :: c in cs ==> cs[c].groupId in groups
  }

  /** Every customer id was drawn from the sequence, whose next value is `next`. */
  predicate CustomerIdsBelow(cs: Customers, next: nat) {
    forall c :: c in cs ==> c < next
  }

  /** Every group id was drawn from the sequence, whose next value is `next`. */
  predicate GroupIdsBelow(groups: Groups, next: nat) {
    forall g :: g in groups ==> g < next
  }

  /**
   * The database invariants the operations rely on: a default group exists,
   * `customers.customer_group_id` is a non-null foreign key, and ids come
   * from the sequences.
   */
  predicate Consistent(cs: Customers, groups: Groups, nextCustomerId: nat, nextGroupId: nat) {
    && HasDefault(groups)
    && Linked(cs, groups)
    && CustomerIdsBelow(cs, nextCustomerId)
    && GroupIdsBelow(groups, nextGroupId)
  }

  /** `Customer.where(id: ids)`: the listed ids that name a customer. */
  function Listed(cs: Customers, ids: set<CustomerId>): set<CustomerId> {
    set c | c in cs && c in ids
  }

  /** `customers.pluck(:customer_group_id)`, read as the set `where(id:)` makes of it. */
  function GroupsOf(cs: Customers, s: set<CustomerId>): set<GroupId> {
    set c | c in cs && c in s :: cs[c].groupId
  }

  /**
   * The rows after `update(customer_group_id: target)` succeeded on each
   * customer of `moved`.
   */
  function Reassigned(cs: Customers, moved: set<CustomerId>, target: GroupId): (r: Customers)
    ensures r.Keys == cs.Keys
    ensures forall c :: c in cs && c in moved ==> r[c] == cs[c].(groupId := target)
    ensures forall c :: c in cs && c !in moved ==> r[c] == cs[c]
  {
    map c | c in cs :: if c in moved then cs[c].(groupId := target) else cs[c]
  }

  /** Moving one customer more is one more row written. */
  lemma ReassignedGrow(cs: Customers, moved: set<CustomerId>, c: CustomerId, target: GroupId)
    requires c in cs && c !in moved
    ensures Reassigned(cs, moved, target)[c := cs[c].(groupId := target)] == Reassigned(cs, moved + {c}, target)
  {
  }

  /**
   * The record store. `unwritable` holds the rows for which the database
   * reports a direct column write as not applied (`update_column` returning
   * false); the operations never change it. The id counters are database
   * sequences, which a rolled-back transaction does not reset.
   */
  class Store {
    var customers: Customers
    var groups: Groups
    var unwritable: set<CustomerId>
    var nextCustomerId: nat
    var nextGroupId: nat

    /** The tables and sequences are `Consistent`. */
    ghost predicate Valid()
      reads this
    {
      Consistent(customers, groups, nextCustomerId, nextGroupId)
    }

    /** An empty store seeded with its default group, as initial setup does. */
    constructor (defaultName: string)
      ensures Valid()
      ensures customers == map[] && groups == map[0 := CustomerGroup(defaultName, true)]
      ensures unwritable == {} && nextCustomerId == 0 && nextGroupId == 1
    {
      customers := map[];
      groups := map[0 := CustomerGroup(defaultName, true)];
      unwritable := {};
      nextCustomerId := 0;
      nextGroupId := 1;
      new;
      assert groups[0].isDefault;
    }

    /**
     * `customer.update_column(:position, index)`: a direct column write that
     * skips validations; it reports whether the database applied it.
     */
    method UpdatePosition(c: CustomerId, index: int) returns (ok: bool)
      requires c in customers
      modifies this`customers
      ensures ok <==> c !in unwritable
      ensures customers == if ok then old(customers)[c := old(customers)[c].(position := At(index))] else old(customers)
    {
      ok := c !in unwritable;
      if ok {
        customers := customers[c := customers[c].(position := At(index))];
      }
    }
  }
}

=== FILE: reset_customer_position.dfy ===
/**
 * `CustomerGroups::ResetCustomerPosition`
 * (app/operations/customer_groups/reset_customer_position.rb): renumber the
 * customers of each listed group 1, 2, 3, ... in `(position, id)` order,
 * kept and discarded customers separately, writing each number with
 * `update_column` and recording a message for every write that fails.
 */
module ResetCustomerPosition {
  import opened Sequences
  import opened Records
  import opened ErrorTracking

  const UnableToUpdatePosition := "unable to update position for customers"

  /**
   * `order(:position, :id)`: `a` comes before `b`. An ascending order puts
   * NULL positions after every number, as PostgreSQL does.
   */
  predicate Before(cs: Customers, a: CustomerId, b: CustomerId)
    requires a in cs && b in cs
  {
    var p, q := cs[a].position, cs[b].position;
    if p.At? && q.At? then p.n < q.n || (p.n == q.n && a < b)
    else if p.At? || q.At? then p.At?
    else a < b
  }

  /** Which customers of a group a pass walks: the association, or its `kept` / `discarded` scope. */
  datatype Scope = Everyone | Kept | Discarded

  predicate InScope(c: Customer, scope: Scope) {
    match scope
    case Everyone => true
    case Kept => !c.discarded
    case Discarded => c.discarded
  }

  /** `customer_group.customers`, narrowed to `scope`. */
  function Members(cs: Customers, g: GroupId, scope: Scope): (s: set<CustomerId>)
    ensures s <= cs.Keys
  {
    set c | c in cs && cs[c].groupId == g && InScope(cs[c], scope)
  }

  /** The customers of `s` that the ordered walk visits before `c`. */
  function Below(cs: Customers, s: set<CustomerId>, c: CustomerId): set<CustomerId>
    requires s <= cs.Keys && c in cs
  {
    set d | d in s && Before(cs, d, c)
  }

  lemma {:induction false} SubsetCardinality<T>(a: set<T>, b: set<T>)
    requires a <= b
    ensures |a| <= |b|
    ensures a < b ==> |a| < |b|
  {
    assert b == a + (b - a);
    assert a * (b - a) == {};
    if a < b {
      var x :| x in b && x !in a;
      assert x in b - a;
    }
  }

  /** The index `each.with_index(1)` hands to `c` when it walks `s` in order. */
  function Rank(cs: Customers, s: set<CustomerId>, c: CustomerId): (k: nat)
    requires s <= cs.Keys && c in cs
    ensures c in s ==> 1 <= k <= |s|
  {
    if c in s then
      SubsetCardinality(Below(cs, s, c), s - {c});
      |Below(cs, s, c)| + 1
    else
      |Below(cs, s, c)| + 1
  }

  /**
   * The rows after a pass over `s` has visited the customers of `done`: each
   * holds its index unless the database refused the write.
   */
  function Written(cs: Customers, s: set<CustomerId>, done: set<CustomerId>, refused: set<CustomerId>): (r: Customers)
    requires done <= s <= cs.Keys
    ensures r.Keys == cs.Keys
  {
    map c | c in cs :: if c in done && c !in refused then cs[c].(position := At(Rank(cs, s, c))) else cs[c]
  }

  /** The rows after a complete pass over `s`. */
  function Renumber(cs: Customers, s: set<CustomerId>, refused: set<CustomerId>): (r: Customers)
    requires s <= cs.Keys
    ensures r.Keys == cs.Keys
  {
    Written(cs, s, s, refused)
  }

  /** The customers `c` is numbered among: its group's kept, or its group's discarded customers. */
  function Partition(cs: Customers, c: CustomerId): (s: set<CustomerId>)
    requires c in cs
    ensures c in s && s <= cs.Keys
  {
    Members(cs, cs[c].groupId, if cs[c].discarded then Discarded else Kept)
  }

  /**
   * The rows after resetting the groups `gs`: every customer of a listed
   * group whose write is applied holds its rank within its partition; the
   * position is the only column that changes.
   */
  function ResetGroups(cs: Customers, gs: set<GroupId>, refused: set<CustomerId>): (r: Customers)
    ensures r.Keys == cs.Keys
  {
    map c | c in cs :: if cs[c].groupId in gs && c !in refused then cs[c].(position := At(Rank(cs, Partition(cs, c), c))) else cs[c]
  }

  /** The customers of the groups `gs` whose position write the database refuses. */
  function FailedWrites(cs: Customers, gs: set<GroupId>, refused: set<CustomerId>): set<CustomerId> {
    set c | c in cs && cs[c].groupId in gs && c in refused
  }

  /** The messages a reset of the groups `gs` adds: one for each refused write. */
  function ResetMessages(cs: Customers, gs: set<GroupId>, refused: set<CustomerId>): (m: seq<string>)
    ensures m == [] <==> FailedWrites(cs, gs, refused) == {}
  {
    Repeat(UnableToUpdatePosition, |FailedWrites(cs, gs, refused)|)
  }

  /** A reset moves no customer between groups, so it keeps the foreign key. */
  lemma ResetKeepsLinked(cs: Customers, groups: Groups, gs: set<GroupId>, refused: set<CustomerId>)
    requires Linked(cs, groups)
    ensures Linked(ResetGroups(cs, gs, refused), groups)
  {
  }

  // ---------------------------------------------------------------------
  // The order and the ranks

  /** Among the customers of `s`, a strictly earlier one receives a strictly smaller index. */
  lemma {:induction false} RankStrictlyIncreasing(cs: Customers, s: set<CustomerId>, a: CustomerId, b: CustomerId)
    requires s <= cs.Keys && a in s && b in s && Before(cs, a, b)
    ensures Rank(cs, s, a) < Rank(cs, s, b)
  {
    var below := Below(cs, s, a);
    assert below + {a} <= Below(cs, s, b);
    assert a !in below;
    SubsetCardinality(below + {a}, Below(cs, s, b));
  }

  /** Distinct customers of `s` receive distinct indices. */
  lemma RankInjective(cs: Customers, s: set<CustomerId>, a: CustomerId, b: CustomerId)
    requires s <= cs.Keys && a in s && b in s && a != b
    ensures Rank(cs, s, a) != Rank(cs, s, b)
  {
    if Before(cs, a, b) {
      RankStrictlyIncreasing(cs, s, a, b);
    } else {
      RankStrictlyIncreasing(cs, s, b, a);
    }
  }

  /** A non-empty set of customers has a last one in `(position, id)` order. */
  lemma {:induction false} Last(cs: Customers, s: set<CustomerId>) returns (m: CustomerId)
    requires s <= cs.Keys && s != {}
    ensures m in s && forall d :: d in s && d != m ==> Before(cs, d, m)
    decreases |s|
  {
    var y :| y in s;
    if s == {y} {
      m := y;
    } else {
      var r := Last(cs, s - {y});
      m := if Before(cs, r, y) then y else r;
      forall d | d in s && d != m ensures Before(cs, d, m) {
        if d != y && d != r {
          assert d in s - {y};
        }
      }
    }
  }

  /** Every index 1..|s| is handed to some customer of `s`. */
  lemma {:induction false} RankedAt(cs: Customers, s: set<CustomerId>, k: int) returns (c: CustomerId)
    requires s <= cs.Keys && 1 <= k <= |s|
    ensures c in s && Rank(cs, s, c) == k
    decreases |s|
  {
    var m := Last(cs, s);
    if k == |s| {
      assert Below(cs, s, m) == s - {m};
      c := m;
    } else {
      var t := s - {m};
      c := RankedAt(cs, t, k);
      assert Below(cs, s, c) == Below(cs, t, c);
    }
  }

  /** A non-empty set of customers has a first one in `(position, id)` order: the one ranked 1. */
  lemma First(cs: Customers, s: set<CustomerId>) returns (m: CustomerId)
    requires s <= cs.Keys && s != {}
    ensures m in s && forall d :: d in s && d != m ==> Before(cs, m, d)
  {
    m := RankedAt(cs, s, 1);
    assert Below(cs, s, m) == {};
    forall d | d in s && d != m ensures Before(cs, m, d) {
      assert d !in Below(cs, s, m);
    }
  }

  /**
   * One more step of a pass: the next customer visited is the first one not
   * yet visited, it receives the next index, and only its row changes, and
   * only when the write is applied.
   */
  lemma {:induction false} WrittenStep(cs: Customers, s: set<CustomerId>, done: set<CustomerId>, c: CustomerId,
                                       refused: set<CustomerId>, rows: Customers, ok: bool)
    requires done <= s <= cs.Keys && c in s && c !in done
    requires forall d :: d in s && d != c ==> (d in done <==> Before(cs, d, c))
    requires rows == Written(cs, s, done, refused) && (ok <==> c !in refused)
    ensures c in rows && rows[c] == cs[c]
    ensures Rank(cs, s, c) == |done| + 1
    ensures (if ok then rows[c := rows[c].(position := At(|done| + 1))] else rows) == Written(cs, s, done + {c}, refused)
    ensures |(done + {c}) * refused| == |done * refused| + if ok then 0 else 1
  {
    assert Below(cs, s, c) == done;
    if ok {
      assert (done + {c}) * refused == done * refused;
    } else {
      assert (done + {c}) * refused == done * refused + {c};
    }
  }

  /** Ranks depend only on the positions of the customers being ranked. */
  lemma {:induction false} RankFrame(cs0: Customers, cs1: Customers, s: set<CustomerId>, c: CustomerId)
    requires s <= cs0.Keys && s <= cs1.Keys && c in cs0 && c in cs1
    requires cs1[c].position == cs0[c].position
    requires forall d :: d in s ==> cs1[d].position == cs0[d].position
    ensures Rank(cs1, s, c) == Rank(cs0, s, c)
  {
    assert Below(cs1, s, c) == Below(cs0, s, c);
  }

  // ---------------------------------------------------------------------
  // What a reset promises

  /** The positions the customers of `s` hold. */
  function Positions(cs: Customers, s: set<CustomerId>): set<Position>
    requires s <= cs.Keys
  {
    set c | c in s :: cs[c].position
  }

  /** The customers of one partition of a listed group, every write applied, hold their ranks. */
  lemma {:induction false} PartitionHoldsRanks(cs: Customers, gs: set<GroupId>, refused: set<CustomerId>, g: GroupId, scope: Scope)
    requires g in gs && scope != Everyone
    requires forall c :: c in Members(cs, g, scope) ==> c !in refused
    ensures forall c :: c in Members(cs, g, scope) ==> ResetGroups(cs, gs, refused)[c].position == At(Rank(cs, Members(cs, g, scope), c))
  {
    var s := Members(cs, g, scope);
    forall c | c in s ensures ResetGroups(cs, gs, refused)[c].position == At(Rank(cs, s, c)) {
      assert Partition(cs, c) == s;
    }
  }

  /**
   * After a reset, the customers of a listed group in one partition whose
   * writes all apply hold exactly the positions 1..N, in their former
   * `(position, id)` order.
   */
  lemma ResetNumbersPartitionInOrder(cs: Customers, gs: set<GroupId>, refused: set<CustomerId>, g: GroupId, scope: Scope)
    requires g in gs && scope != Everyone
    requires forall c :: c in Members(cs, g, scope) ==> c !in refused
    ensures var s, r := Members(cs, g, scope), ResetGroups(cs, gs, refused);
      && (forall a, b :: a in s && b in s && Before(cs, a, b) ==> r[a].position.At? && r[a].position.n < r[b].position.n)
      && (forall p :: p in Positions(r, s) <==> p.At? && 1 <= p.n <= |s|)
  {
    var s, r := Members(cs, g, scope), ResetGroups(cs, gs, refused);
    PartitionHoldsRanks(cs, gs, refused, g, scope);
    forall a, b | a in s && b in s && Before(cs, a, b) ensures r[a].position.At? && r[a].position.n < r[b].position.n {
      RankStrictlyIncreasing(cs, s, a, b);
    }
    forall p ensures p in Positions(r, s) <==> p.At? && 1 <= p.n <= |s| {
      if p in Positions(r, s) {
        var c :| c in s && r[c].position == p;
      }
      if p.At? && 1 <= p.n <= |s| {
        var c := RankedAt(cs, s, p.n);
        assert r[c].position == p;
      }
    }
  }

  /**
   * A reset changes nothing but positions: it never moves a customer to
   * another group, never touches an unlisted group, and leaves a row whose
   * write is refused as it was.
   */
  lemma ResetKeepsMembership(cs: Customers, gs: set<GroupId>, refused: set<CustomerId>)
    ensures var r := ResetGroups(cs, gs, refused);
      && r.Keys == cs.Keys
      && (forall c :: c in cs ==> r[c].(position := cs[c].position) == cs[c])
      && (forall c :: c in cs ==> r[c].groupId == cs[c].groupId && r[c].discarded == cs[c].discarded)
      && (forall c :: c in cs && (cs[c].groupId !in gs || c in refused) ==> r[c] == cs[c])
  {
    var r := ResetGroups(cs, gs, refused);
    forall c | c in cs ensures r[c].(position := cs[c].position) == cs[c] {
    }
  }

  /** Ids naming no group of the table select nothing: only the listed existing groups matter. */
  lemma {:induction false} ResetIgnoresUnknownGroups(cs: Customers, groups: Groups, gs: set<GroupId>, refused: set<CustomerId>)
    requires forall c :: c in cs ==> cs[c].groupId in groups
    ensures ResetGroups(cs, gs * groups.Keys, refused) == ResetGroups(cs, gs, refused)
    ensures FailedWrites(cs, gs * groups.Keys, refused) == FailedWrites(cs, gs, refused)
  {
    var a, b := ResetGroups(cs, gs * groups.Keys, refused), ResetGroups(cs, gs, refused);
    forall c | c in cs ensures a[c] == b[c] {
      assert cs[c].groupId in groups;
    }
  }

  /** Resetting a group does not change the partitions, nor the positions outside the group. */
  lemma {:induction false} ResetFrame(cs: Customers, gs: set<GroupId>, refused: set<CustomerId>, c: CustomerId)
    requires c in cs && cs[c].groupId !in gs
    ensures var r := ResetGroups(cs, gs, refused);
      && Partition(r, c) == Partition(cs, c)
      && Rank(r, Partition(cs, c), c) == Rank(cs, Partition(cs, c), c)
  {
    var r := ResetGroups(cs, gs, refused);
    ResetKeepsMembership(cs, gs, refused);
    assert Partition(r, c) == Partition(cs, c);
    RankFrame(cs, r, Partition(cs, c), c);
  }

  /** Resetting the groups one after another resets them all. */
  lemma {:induction false} ResetComposes(cs: Customers, done: set<GroupId>, g: GroupId, refused: set<CustomerId>)
    requires g !in done
    ensures ResetGroups(ResetGroups(cs, done, refused), {g}, refused) == ResetGroups(cs, done + {g}, refused)
  {
    var mid := ResetGroups(cs, done, refused);
    var a, b := ResetGroups(mid, {g}, refused), ResetGroups(cs, done + {g}, refused);
    forall c | c in cs ensures a[c] == b[c] {
      if cs[c].groupId == g && c !in refused {
        ResetFrame(cs, done, refused, c);
      }
    }
  }

  /** The failed writes of the groups reset one after another add up to those of resetting them together. */
  lemma {:induction false} FailedWritesCompose(cs: Customers, done: set<GroupId>, g: GroupId, refused: set<CustomerId>)
    requires g !in done
    ensures |FailedWrites(cs, done + {g}, refused)|
         == |FailedWrites(cs, done, refused)| + |FailedWrites(ResetGroups(cs, done, refused), {g}, refused)|
  {
    var mid := ResetGroups(cs, done, refused);
    ResetKeepsMembership(cs, done, refused);
    var x, y := FailedWrites(mid, {g}, refused), FailedWrites(cs, done, refused);
    assert x + y == FailedWrites(cs, done + {g}, refused);
    assert x * y == {};
  }

  /** Positions that already are the ranks stay where they are: the order is unchanged and so are the ranks. */
  lemma {:induction false} RanksAreFixed(cs: Customers, gs: set<GroupId>, refused: set<CustomerId>, c: CustomerId)
    requires FailedWrites(cs, gs, refused) == {}
    requires c in cs && cs[c].groupId in gs
    ensures var r := ResetGroups(cs, gs, refused);
      r[c].position == At(Rank(r, Partition(r, c), c))
  {
    var r := ResetGroups(cs, gs, refused);
    ResetKeepsMembership(cs, gs, refused);
    var p := Partition(cs, c);
    assert Partition(r, c) == p;
    forall d | d in p ensures r[d].position == At(Rank(cs, p, d)) {
      assert d !in FailedWrites(cs, gs, refused);
      assert Partition(cs, d) == p;
    }
    forall d | d in p ensures Before(r, d, c) <==> Before(cs, d, c) {
      if d != c {
        if Before(cs, d, c) {
          RankStrictlyIncreasing(cs, p, d, c);
        } else {
          RankStrictlyIncreasing(cs, p, c, d);
        }
      }
    }
    assert Below(r, p, c) == Below(cs, p, c);
  }

  /** A second reset with every write applied leaves every position where the first put it. */
  lemma ResetIdempotent(cs: Customers, gs: set<GroupId>, refused: set<CustomerId>)
    requires FailedWrites(cs, gs, refused) == {}
    ensures ResetGroups(ResetGroups(cs, gs, refused), gs, refused) == ResetGroups(cs, gs, refused)
  {
    var r := ResetGroups(cs, gs, refused);
    ResetKeepsMembership(cs, gs, refused);
    var rr := ResetGroups(r, gs, refused);
    forall c | c in cs ensures rr[c] == r[c] {
      if cs[c].groupId in gs {
        RanksAreFixed(cs, gs, refused, c);
      }
    }
  }

  /** The pass over the kept customers leaves the discarded ones as they were. */
  lemma {:induction false} KeptPassFrame(cs: Customers, g: GroupId, refused: set<CustomerId>)
    ensures var first := Renumber(cs, Members(cs, g, Kept), refused);
      && Members(first, g, Discarded) == Members(cs, g, Discarded)
      && forall c :: c in Members(cs, g, Discarded) ==> first[c] == cs[c]
  {
    var first := Renumber(cs, Members(cs, g, Kept), refused);
    assert forall c :: c in cs ==> first[c].groupId == cs[c].groupId && first[c].discarded == cs[c].discarded;
  }

  /** A pass over the kept customers, then one over the discarded ones, is the reset of the group. */
  lemma {:induction false} TwoPasses(cs: Customers, g: GroupId, refused: set<CustomerId>)
    ensures Renumber(Renumber(cs, Members(cs, g, Kept), refused), Members(cs, g, Discarded), refused)
         == ResetGroups(cs, {g}, refused)
  {
    var kept, discarded := Members(cs, g, Kept), Members(cs, g, Discarded);
    var first := Renumber(cs, kept, refused);
    KeptPassFrame(cs, g, refused);
    var second, reset := Renumber(first, discarded, refused), ResetGroups(cs, {g}, refused);
    forall c | c in cs ensures second[c] == reset[c] {
      if c in discarded && c !in refused {
        RankFrame(cs, first, discarded, c);
        assert Partition(cs, c) == discarded;
      } else if c in kept && c !in refused {
        assert Partition(cs, c) == kept;
      }
    }
  }

  /** The failed writes of a group are those of its kept and of its discarded customers. */
  lemma {:induction false} FailedWritesSplit(cs: Customers, g: GroupId, refused: set<CustomerId>)
    ensures |FailedWrites(cs, {g}, refused)| == |Members(cs, g, Kept) * refused| + |Members(cs, g, Discarded) * refused|
  {
    var kept, discarded := Members(cs, g, Kept), Members(cs, g, Discarded);
    assert FailedWrites(cs, {g}, refused) == kept * refused + discarded * refused;
    assert (kept * refused) * (discarded * refused) == {};
  }

  /** Every customer of `done` comes before every customer of `pending`. */
  predicate Precedes(cs: Customers, done: set<CustomerId>, pending: set<CustomerId>)
    requires done <= cs.Keys && pending <= cs.Keys
  {
    forall p, q :: p in done && q in pending ==> Before(cs, p, q)
  }

  /** Visiting the first pending customer keeps the pass's bookkeeping: visited ones precede pending ones. */
  lemma {:induction false} PassStep(cs: Customers, s: set<CustomerId>, done: set<CustomerId>, pending: set<CustomerId>, c: CustomerId)
    requires s <= cs.Keys && done * pending == {} && done + pending == s
    requires Precedes(cs, done, pending)
    requires c in pending && forall d :: d in pending && d != c ==> Before(cs, c, d)
    ensures (done + {c}) * (pending - {c}) == {} && (done + {c}) + (pending - {c}) == s
    ensures Precedes(cs, done + {c}, pending - {c})
    ensures forall d :: d in s && d != c ==> (d in done <==> Before(cs, d, c))
  {
    assert (done + {c}) + (pending - {c}) == done + pending;
  }

  // ---------------------------------------------------------------------
  // The operation

  /**
   * The body of a pass for the customer `c` it visits `index`-th:
   * `update_column(:position, index)`, and a message when it is not applied.
   */
  method Visit(store: Store, ghost cs0: Customers, ghost s: set<CustomerId>, ghost done: set<CustomerId>,
               c: CustomerId, index: int, tracker: ErrorTracker, ghost prefix: seq<string>)
    requires done <= s <= cs0.Keys && c in s && c !in done && index == |done| + 1
    requires forall d :: d in s && d != c ==> (d in done <==> Before(cs0, d, c))
    requires store.customers == Written(cs0, s, done, store.unwritable)
    requires tracker.errors == prefix + Repeat(UnableToUpdatePosition, |done * store.unwritable|)
    modifies store`customers, tracker
    ensures store.customers == Written(cs0, s, done + {c}, store.unwritable)
    ensures tracker.errors == prefix + Repeat(UnableToUpdatePosition, |(done + {c}) * store.unwritable|)
  {
    WrittenStep(cs0, s, done, c, store.unwritable, store.customers, c !in store.unwritable);
    var ok := store.UpdatePosition(c, index);
    if !ok {
      tracker.AddErrors(Text(UnableToUpdatePosition));
      AppendRepeat(prefix, UnableToUpdatePosition, |done * store.unwritable|);
    }
  }

  /**
   * One ordered pass: `customers.order(:position, :id).each.with_index(1)`,
   * visiting the customers of `s` first to last.
   */
  method RenumberPass(store: Store, s: set<CustomerId>, tracker: ErrorTracker)
    requires s <= store.customers.Keys
    modifies store`customers, tracker
    ensures store.customers == Renumber(old(store.customers), s, store.unwritable)
    ensures tracker.errors == old(tracker.errors) + Repeat(UnableToUpdatePosition, |s * store.unwritable|)
  {
    var cs0 := store.customers;
    var pending := s;
    ghost var done: set<CustomerId> := {};
    var index := 1;
    while pending != {}
      invariant done * pending == {} && done + pending == s
      invariant index == |done| + 1
      invariant Precedes(cs0, done, pending)
      invariant store.customers == Written(cs0, s, done, store.unwritable)
      invariant tracker.errors == old(tracker.errors) + Repeat(UnableToUpdatePosition, |done * store.unwritable|)
      decreases |pending|
    {
      ghost var first := First(cs0, pending);
      var c :| c in pending && forall d :: d in pending && d != c ==> Before(cs0, c, d);
      PassStep(cs0, s, done, pending, c);
      Visit(store, cs0, s, done, c, index, tracker, old(tracker.errors));
      done := done + {c};
      pending := pending - {c};
      index := index + 1;
    }
  }

  /** Both passes of one group, as corrected: kept customers first, then discarded ones. */
  method ResetGroup(store: Store, g: GroupId, tracker: ErrorTracker)
    modifies store`customers, tracker
    ensures store.customers == ResetGroups(old(store.customers), {g}, store.unwritable)
    ensures tracker.errors == old(tracker.errors)
      + Repeat(UnableToUpdatePosition, |FailedWrites(old(store.customers), {g}, store.unwritable)|)
  {
    ghost var cs0 := store.customers;
    KeptPassFrame(cs0, g, store.unwritable);
    TwoPasses(cs0, g, store.unwritable);
    FailedWritesSplit(cs0, g, store.unwritable);
    RenumberPass(store, Members(store.customers, g, Kept), tracker);
    RenumberPass(store, Members(store.customers, g, Discarded), tracker);
    AppendRepeats(old(tracker.errors), UnableToUpdatePosition, |Members(cs0, g, Kept) * store.unwritable|,
                  |Members(cs0, g, Discarded) * store.unwritable|);
  }

  /** One more listed group: the rows and messages are those of resetting every group handled so far. */
  method ResetNext(store: Store, ghost cs0: Customers, ghost done: set<GroupId>, g: GroupId,
                   tracker: ErrorTracker, ghost prefix: seq<string>)
    requires g !in done
    requires store.customers == ResetGroups(cs0, done, store.unwritable)
    requires tracker.errors == prefix + Repeat(UnableToUpdatePosition, |FailedWrites(cs0, done, store.unwritable)|)
    modifies store`customers, tracker
    ensures store.customers == ResetGroups(cs0, done + {g}, store.unwritable)
    ensures tracker.errors == prefix + Repeat(UnableToUpdatePosition, |FailedWrites(cs0, done + {g}, store.unwritable)|)
  {
    ghost var failed, more := |FailedWrites(cs0, done, store.unwritable)|, |FailedWrites(store.customers, {g}, store.unwritable)|;
    ResetGroup(store, g, tracker);
    ResetComposes(cs0, done, g, store.unwritable);
    FailedWritesCompose(cs0, done, g, store.unwritable);
    AppendRepeats(prefix, UnableToUpdatePosition, failed, more);
  }

  /** `reset_customer_positions`: both passes for every listed group that exists. */
  method ResetPositions(store: Store, groupIds: set<GroupId>, tracker: ErrorTracker)
    modifies store`customers, tracker
    ensures store.customers == ResetGroups(old(store.customers), groupIds * store.groups.Keys, store.unwritable)
    ensures tracker.errors == old(tracker.errors)
      + Repeat(UnableToUpdatePosition, |FailedWrites(old(store.customers), groupIds * store.groups.Keys, store.unwritable)|)
  {
    ghost var cs0, u := store.customers, store.unwritable;
    var todo := groupIds * store.groups.Keys;
    ghost var done: set<GroupId> := {};
    assert ResetGroups(cs0, done, u) == cs0;
    while todo != {}
      invariant todo * done == {} && todo + done == groupIds * store.groups.Keys
      invariant store.customers == ResetGroups(cs0, done, u)
      invariant tracker.errors == old(tracker.errors) + Repeat(UnableToUpdatePosition, |FailedWrites(cs0, done, u)|)
      decreases |todo|
    {
      var g :| g in todo;
      ResetNext(store, cs0, done, g, tracker, old(tracker.errors));
      done := done + {g};
      todo := todo - {g};
    }
  }

  /**
   * `ResetCustomerPosition.call`: reset the listed groups, then fail when the
   * tracker holds any message, including one added before the call.
   */
  method Call(store: Store, groupIds: set<GroupId>, tracker: ErrorTracker) returns (env: Envelope)
    modifies store`customers, tracker
    ensures store.customers == ResetGroups(old(store.customers), groupIds * store.groups.Keys, store.unwritable)
    ensures tracker.errors == old(tracker.errors)
      + Repeat(UnableToUpdatePosition, |FailedWrites(old(store.customers), groupIds * store.groups.Keys, store.unwritable)|)
    ensures env.success <==> old(tracker.errors) == [] && FailedWrites(old(store.customers), groupIds * store.groups.Keys, store.unwritable) == {}
    ensures env == Envelope(!tracker.HasError(), tracker.ErrorList(), if tracker.HasError() then EmptyList else Nil)
  {
    ResetPositions(store, groupIds, tracker);
    if tracker.HasError() {
      return Envelope(false, tracker.ErrorList(), EmptyList);
    }
    return Envelope(true, tracker.ErrorList(), Nil);
  }

  // ---------------------------------------------------------------------
  // The reset as written

  /**
   * The source's passes for one group: the first walks the whole association,
   * discarded customers included, and the second renumbers the discarded ones
   * from the positions the first wrote.
   */
  function ResetGroupAsWritten(cs: Customers, g: GroupId, refused: set<CustomerId>): (r: Customers)
    ensures r.Keys == cs.Keys
  {
    var first := Renumber(cs, Members(cs, g, Everyone), refused);
    Renumber(first, Members(first, g, Discarded), refused)
  }

  /**
   * As written, the reset is not idempotent: a kept customer that a
   * discarded one precedes is numbered 1, the discarded one is renumbered 1
   * too, and the tie puts the discarded one (lower id) first next time.
   */
  lemma AsWrittenNotIdempotent()
    ensures var cs := map[2 := Customer(5, At(1), false, true, "Asha", "9000000001"),
                          1 := Customer(5, At(2), true, true, "Bilal", "9000000002")];
      var once := ResetGroupAsWritten(cs, 5, {});
      && once[2].position == At(1)
      && ResetGroupAsWritten(once, 5, {})[2].position == At(2)
  {
    var cs := map[2 := Customer(5, At(1), false, true, "Asha", "9000000001"),
                  1 := Customer(5, At(2), true, true, "Bilal", "9000000002")];
    var all := Members(cs, 5, Everyone);
    assert all == {1, 2};
    assert Below(cs, all, 2) == {};
    var first := Renumber(cs, all, {});
    assert first[2].position == At(1);
    assert Members(first, 5, Discarded) == {1};
    var once := Renumber(first, {1}, {});
    assert once[2] == first[2];
    assert once[1].position == At(1) by {
      assert Below(first, {1}, 1) == {};
    }
    var all' := Members(once, 5, Everyone);
    assert all' == {1, 2};
    assert Below(once, all', 2) == {1};
    var first' := Renumber(once, all', {});
    assert first'[2].position == At(2);
    assert Members(first', 5, Discarded) == {1};
  }

  /** On the same rows, the corrected reset is back where it started after a second reset. */
  lemma CorrectedResetSettles()
    ensures var cs := map[2 := Customer(5, At(1), false, true, "Asha", "9000000001"),
                          1 := Customer(5, At(2), true, true, "Bilal", "9000000002")];
      var once := ResetGroups(cs, {5}, {});
      && once[2].position == At(1) && once[1].position == At(1)
      && ResetGroups(once, {5}, {}) == once
  {
    var cs := map[2 := Customer(5, At(1), false, true, "Asha", "9000000001"),
                  1 := Customer(5, At(2), true, true, "Bilal", "9000000002")];
    assert Partition(cs, 2) == {2};
    assert Partition(cs, 1) == {1};
    assert Below(cs, {2}, 2) == {};
    assert Below(cs, {1}, 1) == {};
    assert FailedWrites(cs, {5}, {}) == {};
    ResetIdempotent(cs, {5}, {});
  }
}

=== FILE: sequences.dfy ===
/**
 * Collection helpers the operations rely on: Ruby's `Array#uniq`, repetition,
 * the least element of a set of ids and the ascending id order in which
 * `find_each` walks a relation.
 */
module Sequences {

  predicate NoDuplicates<T(==)>(s: seq<T>) {
    forall i, j :: 0 <= i < j < |s| ==> s[i] != s[j]
  }

  /** Index of the first occurrence of `x` in `s`. */
  function FirstIndex<T(==)>(s: seq<T>, x: T): (k: nat)
    requires x in s
    ensures k < |s| && s[k] == x
    ensures forall i :: 0 <= i < k ==> s[i] != x
    decreases |s|
  {
    if x in s[..|s| - 1] then FirstIndex(s[..|s| - 1], x) else |s| - 1
  }

  /** `Array#uniq`: the elements of `s`, each once, at the place it first occurs. */
  function Dedup<T(==)>(s: seq<T>): (r: seq<T>)
    ensures NoDuplicates(r)
    ensures forall i :: 0 <= i < |r| ==> r[i] in s
    ensures forall i :: 0 <= i < |s| ==> s[i] in r
    ensures |r| <= |s|
    decreases |s|
  {
    if s == [] then []
    else
      var r := Dedup(s[..|s| - 1]);
      if s[|s| - 1] in r then r else r + [s[|s| - 1]]
  }

  /** `uniq` keeps first-occurrence order. */
  lemma {:induction false} DedupKeepsFirstOccurrenceOrder<T>(s: seq<T>)
    ensures forall i, j :: 0 <= i < j < |Dedup(s)| ==> FirstIndex(s, Dedup(s)[i]) < FirstIndex(s, Dedup(s)[j])
    decreases |s|
  {
    if s != [] {
      var init := s[..|s| - 1];
      var last := s[|s| - 1];
      DedupKeepsFirstOccurrenceOrder(init);
      var r0 := Dedup(init);
      assert s == init + [last];
      forall x | x in init ensures FirstIndex(s, x) == FirstIndex(init, x) {
        assert s[..|s| - 1] == init;
      }
      var r := Dedup(s);
      forall i, j | 0 <= i < j < |r| ensures FirstIndex(s, r[i]) < FirstIndex(s, r[j]) {
        assert r[i] in r0 && r[i] in init;
        if j < |r0| {
          assert r[j] in init;
        } else {
          assert r[j] == last && last !in init;
          assert FirstIndex(s, r[j]) == |s| - 1;
        }
      }
    }
  }

  /** `s.count == s.uniq.count` holds exactly when `s` repeats nothing. */
  lemma {:induction false} DedupSameLengthIffNoDuplicates<T>(s: seq<T>)
    ensures |Dedup(s)| == |s| <==> NoDuplicates(s)
    decreases |s|
  {
    if s != [] {
      var init := s[..|s| - 1];
      var last := s[|s| - 1];
      DedupSameLengthIffNoDuplicates(init);
      assert s == init + [last];
      if NoDuplicates(s) {
        assert NoDuplicates(init) by {
          forall i, j | 0 <= i < j < |init| ensures init[i] != init[j] {
            assert init[i] == s[i] && init[j] == s[j];
          }
        }
        assert last !in init by {
          forall i | 0 <= i < |init| ensures init[i] != last {
            assert s[i] == init[i];
          }
        }
      } else if |Dedup(s)| == |s| {
        assert last !in Dedup(init);
        assert |Dedup(init)| == |init|;
        assert NoDuplicates(init);
        assert last !in init;
        forall i, j | 0 <= i < j < |s| ensures s[i] != s[j] {
          if j < |s| - 1 {
            assert s[i] == init[i] && s[j] == init[j];
          } else {
            assert s[i] == init[i];
          }
        }
        assert false;
      }
    }
  }

  /** `n` copies of `x`. */
  function Repeat<T>(x: T, n: nat): (r: seq<T>)
    ensures |r| == n && forall i :: 0 <= i < n ==> r[i] == x
  {
    if n == 0 then [] else Repeat(x, n - 1) + [x]
  }

  lemma {:induction false} RepeatAdd<T>(x: T, a: nat, b: nat)
    ensures Repeat(x, a) + Repeat(x, b) == Repeat(x, a + b)
  {
    var l, r := Repeat(x, a) + Repeat(x, b), Repeat(x, a + b);
    assert |l| == |r|;
    forall i | 0 <= i < |l| ensures l[i] == r[i] {
      if i < a { assert l[i] == Repeat(x, a)[i]; } else { assert l[i] == Repeat(x, b)[i - a]; }
    }
  }

  /** Appending `b` copies after `a` copies is appending `a + b` copies. */
  lemma AppendRepeats<T>(p: seq<T>, x: T, a: nat, b: nat)
    ensures (p + Repeat(x, a)) + Repeat(x, b) == p + Repeat(x, a + b)
  {
    RepeatAdd(x, a, b);
    assert (p + Repeat(x, a)) + Repeat(x, b) == p + (Repeat(x, a) + Repeat(x, b));
  }

  /** One more copy of `x` after `a` followed by `n` copies. */
  lemma AppendRepeat<T>(a: seq<T>, x: T, n: nat)
    ensures (a + Repeat(x, n)) + [x] == a + Repeat(x, n + 1)
  {
    assert Repeat(x, n + 1) == Repeat(x, n) + [x];
    assert (a + Repeat(x, n)) + [x] == a + (Repeat(x, n) + [x]);
  }

  lemma AppendAssoc<T>(a: seq<T>, b: seq<T>, c: seq<T>)
    ensures (a + b) + c == a + (b + c)
  {
  }

  /** The batches of `ss` joined in order, as `add_errors` collects them one after another. */
  function Concat<T>(ss: seq<seq<T>>): seq<T> {
    if ss == [] then [] else Concat(ss[..|ss| - 1]) + ss[|ss| - 1]
  }

  /** Joining one more batch appends it. */
  lemma ConcatSnoc<T>(ss: seq<seq<T>>, x: seq<T>)
    ensures Concat(ss + [x]) == Concat(ss) + x
  {
    assert (ss + [x])[..|ss|] == ss;
  }

  /** The joined batches are empty exactly when every batch is. */
  lemma {:induction false} ConcatEmptyIff<T>(ss: seq<seq<T>>)
    ensures Concat(ss) == [] <==> forall i :: 0 <= i < |ss| ==> ss[i] == []
  {
    if ss != [] {
      var init := ss[..|ss| - 1];
      ConcatEmptyIff(init);
      assert forall i :: 0 <= i < |init| ==> init[i] == ss[i];
    }
  }

  lemma {:induction false} Minimum(s: set<nat>) returns (m: nat)
    requires s != {}
    ensures m in s && forall x :: x in s ==> m <= x
    decreases |s|
  {
    var y :| y in s;
    if s == {y} {
      m := y;
    } else {
      var r := Minimum(s - {y});
      m := if y < r then y else r;
      forall x | x in s ensures m <= x {
        if x != y {
          assert x in s - {y};
        }
      }
    }
  }

  /** A non-empty set of ids has a least one, stated for use in expressions. */
  lemma MinimumExists(s: set<nat>)
    requires s != {}
    ensures exists m :: m in s && forall x :: x in s ==> m <= x
  {
    var m := Minimum(s);
  }

  /** The ids of `s` below `bound` in ascending order, as `find_each` visits them. */
  function Ascending(s: set<nat>, bound: nat): (r: seq<nat>)
    ensures forall x :: x in r <==> x in s && x < bound
    ensures forall i :: 0 <= i < |r| ==> r[i] < bound
    ensures forall i, j :: 0 <= i < j < |r| ==> r[i] < r[j]
  {
    if bound == 0 then []
    else if bound - 1 in s then Ascending(s, bound - 1) + [bound - 1]
    else Ascending(s, bound - 1)
  }
}

=== FILE: text.dfy ===
/**
 * String predicates behind the model validations and scopes: Ruby's `blank?`,
 * SQL's `lower()` and `LIKE '%term%'`, and the presence and length validators
 * that `Customer` and `CustomerGroup` both declare on `name`.
 */
module Text {

  /**
   * The characters `[[:space:]]` matches in `blank?`: Unicode's White_Space
   * set, the ASCII tab, line feed, vertical tab, form feed, carriage return
   * and space together with the Unicode spaces and line separators.
   */
  predicate IsSpace(c: char) {
    || '\t' <= c <= '\r' || c == ' '
    || c == '\U{85}' || c == '\U{A0}' || c == '\U{1680}'
    || '\U{2000}' <= c <= '\U{200A}'
    || c == '\U{2028}' || c == '\U{2029}' || c == '\U{202F}' || c == '\U{205F}' || c == '\U{3000}'
  }

  /** `blank?` on a string attribute; a missing (nil) attribute is the empty string here. */
  predicate IsBlank(s: string) {
    forall i :: 0 <= i < |s| ==> IsSpace(s[i])
  }

  function LowerChar(c: char): char {
    if 'A' <= c <= 'Z' then (c as int + 32) as char else c
  }

  /** `lower(...)` / `downcase`, on ASCII letters. */
  function Lower(s: string): (r: string)
    ensures |r| == |s|
    ensures forall i :: 0 <= i < |s| ==> r[i] == LowerChar(s[i])
  {
    seq(|s|, i requires 0 <= i < |s| => LowerChar(s[i]))
  }

  /** Equality under `case_sensitive: false`. */
  predicate SameIgnoringCase(a: string, b: string) {
    Lower(a) == Lower(b)
  }

  /** `t` occurs in `s` starting at index `i`. */
  predicate OccursAt(s: string, t: string, i: nat) {
    i + |t| <= |s| && s[i..i + |t|] == t
  }

  /** `s LIKE '%t%'` for a term without wildcard characters: `t` occurs in `s`. */
  predicate Contains(s: string, t: string) {
    exists i: nat | i <= |s| :: OccursAt(s, t, i)
  }

  /** The empty term occurs in every string: `LIKE '%%'` matches any value. */
  lemma ContainsEmpty(s: string)
    ensures Contains(s, "")
  {
    assert OccursAt(s, "", 0);
  }

  /** Downcasing commutes with taking a slice. */
  lemma LowerSlice(s: string, i: nat, j: nat)
    requires i <= j <= |s|
    ensures Lower(s)[i..j] == Lower(s[i..j])
  {
  }

  /** An occurrence survives downcasing both strings. */
  lemma ContainsLowered(s: string, t: string)
    requires Contains(s, t)
    ensures Contains(Lower(s), Lower(t))
  {
    var i: nat :| i <= |s| && OccursAt(s, t, i);
    LowerSlice(s, i, i + |t|);
    assert OccursAt(Lower(s), Lower(t), i);
  }

  /** A string that occurs in an occurrence of `t` occurs in `s`. */
  lemma ContainsTransitive(s: string, t: string, u: string)
    requires Contains(s, t) && Contains(t, u)
    ensures Contains(s, u)
  {
    var i: nat :| i <= |s| && OccursAt(s, t, i);
    var j: nat :| j <= |t| && OccursAt(t, u, j);
    forall k | 0 <= k < |u| ensures s[i + j + k] == u[k] {
      assert s[i..i + |t|][j + k] == t[j + k];
      assert t[j..j + |u|][k] == u[k];
    }
    assert s[i + j..i + j + |u|] == u;
    assert OccursAt(s, u, i + j);
  }

  /** No place of `s` at or after `i` holds `a` followed by `b`. */
  predicate PairFreeFrom(s: string, a: char, b: char, i: nat)
    decreases |s| - i
  {
    i + 1 >= |s| || ((s[i] != a || s[i + 1] != b) && PairFreeFrom(s, a, b, i + 1))
  }

  lemma {:induction false} PairFreeAt(s: string, a: char, b: char, i: nat, j: nat)
    requires PairFreeFrom(s, a, b, i) && i <= j && j + 1 < |s|
    ensures s[j] != a || s[j + 1] != b
    decreases j - i
  {
    if i < j {
      PairFreeAt(s, a, b, i + 1, j);
    }
  }

  /** `t` does not occur in `s` when no place of `s` starts with the first two characters of `t`. */
  lemma NoOccurrence(s: string, t: string, a: char, b: char)
    requires |t| >= 2 && t[0] == a && t[1] == b && PairFreeFrom(s, a, b, 0)
    ensures !Contains(s, t)
  {
    forall i: nat ensures !OccursAt(s, t, i) {
      if i + |t| <= |s| {
        PairFreeAt(s, a, b, 0, i);
        assert s[i..i + |t|][0] == s[i] && s[i..i + |t|][1] == s[i + 1];
      }
    }
  }

  /** No place of `s` at or after `i` holds `a` followed by `b` once downcased. */
  predicate CaselessPairFreeFrom(s: string, a: char, b: char, i: nat)
    decreases |s| - i
  {
    i + 1 >= |s| || ((LowerChar(s[i]) != a || LowerChar(s[i + 1]) != b) && CaselessPairFreeFrom(s, a, b, i + 1))
  }

  lemma {:induction false} CaselessPairFree(s: string, a: char, b: char, i: nat)
    requires CaselessPairFreeFrom(s, a, b, i)
    ensures PairFreeFrom(Lower(s), a, b, i)
    decreases |s| - i
  {
    if i + 1 < |s| {
      CaselessPairFree(s, a, b, i + 1);
    }
  }

  /** `Lower(t)` does not occur in `Lower(s)` when no place of `s` starts, ignoring case, like `t`. */
  lemma NoCaselessOccurrence(s: string, t: string, a: char, b: char)
    requires |t| >= 2 && LowerChar(t[0]) == a && LowerChar(t[1]) == b && CaselessPairFreeFrom(s, a, b, 0)
    ensures !Contains(Lower(s), Lower(t))
  {
    CaselessPairFree(s, a, b, 0);
    NoOccurrence(Lower(s), Lower(t), a, b);
  }

  const CantBeBlank := " can't be blank"
  const TooShort := " is too short (minimum is 3 characters)"
  const TooLong := " is too long (maximum is 50 characters)"

  /** Full messages of `validates attr, presence: true` for an attribute whose human name is `attribute`. */
  function PresenceErrors(attribute: string, value: string): (errs: seq<string>)
    ensures errs == [] <==> !IsBlank(value)
  {
    if IsBlank(value) then [attribute + CantBeBlank] else []
  }

  /** Full messages of `validates attr, length: { minimum: 3, maximum: 50 }`. */
  function LengthErrors(attribute: string, value: string): (errs: seq<string>)
    ensures errs == [] <==> 3 <= |value| <= 50
  {
    if |value| < 3 then [attribute + TooShort]
    else if |value| > 50 then [attribute + TooLong]
    else []
  }
}
